=== FILE: README.md ===
# ujxsw novel crawler — a Dafny model of its deterministic rules

The crawler fetches pages of the fiction site ujxsw.org. From those pages it extracts
novel metadata, chapter lists, chapter text and search results, and it writes whole
novels to text files. A small factory maps site names to crawler classes.
Most of the code is asynchronous glue around `aiohttp` and BeautifulSoup. Between
those calls sit total, deterministic rules, and this project models exactly those:

- **Metadata** (`metadata.dfy`, module `UjMetadata`): the novel id taken from the
  detail URL, and word counts with a `K` (×1000) or `W` (×10000) suffix. Also the
  completed/ongoing status (more than 30 elapsed days means completed), and the
  all-empty sentinel record that replaces every failure.
- **Chapters** (`chapters.dfy`, `UjChapters`): the catalogue skips volume headings
  (class `fj`) and link-less items and prefixes the site root to each link. Chapter
  text drops advertisement lines, but only in its first four and last three lines.
- **Discovery** (`discovery.dfy`, `UjDiscovery`): keyword search is truncated to
  `top_n` entries, with the default author `佚名`. Author search is also modelled.
  The tag listing is refused for unknown tags, reads its page count from
  "第 X / Y 页" and requests pages `1..Y` in order.
- **Persistence** (`persist.dfy`, `UjPersist`): the file path, the body built in
  outline order, append-not-truncate semantics, and the whole save pipeline.
- **Registry** (`factory.dfy`, `CrawlerFactory`): register/create over a
  `map<string, Option<C>>`. Registration overwrites silently and `create` fails on
  an unknown name. The module also holds the shared records `NovelMetadata`,
  `ChapterRef` and `NovelRef`.
- Support modules: `Wrappers` (Option, Result), `Strings` (Python's `split`,
  `join`, `in`, `replace(p, '')`, `strip`, `int` and `str` on naturals), `Seqs`
  (filter-map, order-preserving gather, flatten) and `UjSite` (site constants).

The HTML parser's output enters the model as plain records (`DetailPage`,
`CatalogItem`, `Listing`, `AuthorRow`). `None` stands for a failed fetch or a
missing element. The clock enters as a function `daysSince` from a date string to
the elapsed whole days. The file system is a `map<string, string>`. Every operation
is a pure function, so `create` cannot change the registry. Two `create` calls with
the same name therefore always give the same class.

Three behaviours of the code are easy to miss, and the model keeps them as written:
- When metadata fetching fails, the code still creates a file (see Findings).
- The path is built by plain concatenation, `file_path + tag + '/' + ...`, with no
  separator added after `file_path`.
- One failed listing page empties the whole tag listing. The pages are gathered
  without catching, so per-page failures are not isolated.

## Model

| member | source | states |
|---|---|---|
| `UjMetadata.IdSegment` | src/novel_crawler/impl/UjNovelCrawler.py:49 | the index `[-2]` after a trailing slash, or `[-1]`, is always in range, and the chosen segment contains no '/' |
| `UjMetadata.NovelId` | src/novel_crawler/impl/UjNovelCrawler.py:49 | the novel id never contains '/' |
| `UjMetadata.NovelIdOfDirectory` | src/novel_crawler/impl/UjNovelCrawler.py:40-49 | for `prefix/segment/` the id is `segment` with ".html" removed |
| `UjMetadata.NovelIdOfFile` | src/novel_crawler/impl/UjNovelCrawler.py:49 | for `prefix/segment` (non-empty segment) the id is `segment` with ".html" removed |
| `UjMetadata.NovelIdOfBook` | src/novel_crawler/impl/UjNovelCrawler.py:40-49 | a book page `http://www.ujxsw.org/book/<id>/` with a non-empty numeric id has exactly that id |
| `UjMetadata.NovelIdOfHtml` | src/novel_crawler/impl/UjNovelCrawler.py:49 | a page `prefix/<id>.html` with a non-empty numeric id has exactly that id: only the suffix is removed |
| `UjMetadata.NovelIdExample` | src/novel_crawler/impl/UjNovelCrawler.py:40-49 | `http://www.ujxsw.org/book/1022/` has id "1022" |
| `UjMetadata.WordCount` | src/novel_crawler/impl/UjNovelCrawler.py:67-74 | a parsed count with a `K` is a multiple of 1000; with a `W` and no `K` it is a multiple of 10000 |
| `UjMetadata.WordCountThousands` | src/novel_crawler/impl/UjNovelCrawler.py:67-69 | `str(n) + "K"` parses to n × 1000 |
| `UjMetadata.WordCountTenThousands` | src/novel_crawler/impl/UjNovelCrawler.py:70-72 | `str(n) + "W"` parses to n × 10000 |
| `UjMetadata.WordCountPlain` | src/novel_crawler/impl/UjNovelCrawler.py:73-74 | a bare `str(n)` parses to n |
| `UjMetadata.WordCountKBeforeW` | src/novel_crawler/impl/UjNovelCrawler.py:67-72 | the `K` test comes first: a text with both letters keeps its `W` and fails to parse |
| `UjMetadata.WordCountExamples` | src/novel_crawler/impl/UjNovelCrawler.py:67-74 | "12K" is 12000, "3W" is 30000, "500" is 500 |
| `UjMetadata.Status` | src/novel_crawler/impl/UjNovelCrawler.py:84-85 | status is 完结 exactly when the elapsed days exceed 30, otherwise 连载 |
| `UjMetadata.StatusMonotone` | src/novel_crawler/impl/UjNovelCrawler.py:85 | a completed status stays completed as more days pass |
| `UjMetadata.StatusBoundary` | src/novel_crawler/impl/UjNovelCrawler.py:85 | 29 and 30 days give ongoing, 31 days gives completed |
| `UjMetadata.UpdateTime` | src/novel_crawler/impl/UjNovelCrawler.py:83 | the stored date has no surrounding whitespace and is never longer than the span text; text without the label is only stripped |
| `UjMetadata.UpdateTimeOfLabel` | src/novel_crawler/impl/UjNovelCrawler.py:83 | a span text "更新时间：" followed by a date with no label in it gives that date, stripped |
| `UjMetadata.MetadataOf` | src/novel_crawler/impl/UjNovelCrawler.py:41-115 | a failed page gives the sentinel; any other result has the URL's id, a status of 完结 or 连载 and a catalogue URL under the site root; the result is the sentinel exactly when its status is empty |
| `UjMetadata.MetadataOfWellFormed` | src/novel_crawler/impl/UjNovelCrawler.py:53-98 | a page with five counters gives the sentinel when the word count or the date does not parse, and otherwise yields its id, title, author, tag, count, status, absolute catalogue URL, cleaned update date, joined stripped description and cover URL |
| `UjMetadata.MetadataShortCounters` | src/novel_crawler/impl/UjNovelCrawler.py:61-66 | fewer than five counter spans gives the sentinel (the `IndexError` path) |
| `UjChapters.ChapterOf` | src/novel_crawler/impl/UjNovelCrawler.py:137-145 | an item yields a chapter exactly when it lacks class `fj` and has a link; the chapter is the link text and the site root followed by the href |
| `UjChapters.ChapterList` | src/novel_crawler/impl/UjNovelCrawler.py:121-150 | a failed fetch gives []; otherwise there are no more chapters than items, every chapter comes from an item, and every URL starts with the site root |
| `UjChapters.ChapterListAppend` | src/novel_crawler/impl/UjNovelCrawler.py:137-146 | catalogue order is kept: the list for `a + b` is the list for `a` followed by the list for `b` |
| `UjChapters.ChapterListItem` | src/novel_crawler/impl/UjNovelCrawler.py:138-145 | a skipped item contributes nothing, and a kept item contributes its chapter exactly at its place |
| `UjChapters.AdFilter` | src/novel_crawler/impl/UjNovelCrawler.py:171-178 | the filter only drops lines: it keeps no more lines than it was given, and every kept line is one of them |
| `UjChapters.KeptLong` | src/novel_crawler/impl/UjNovelCrawler.py:171-178 | for any advertisement test, with seven or more lines, the filter equals dropping matching lines from the first four and last three and copying the rest |
| `UjChapters.AdFilterLong` | src/novel_crawler/impl/UjNovelCrawler.py:171-178 | with seven or more lines, keyword lines are removed from the first four and the last three, and the interior is copied unchanged |
| `UjChapters.AdFilterShort` | src/novel_crawler/impl/UjNovelCrawler.py:174-177 | with at most seven lines, every keyword line is removed |
| `UjChapters.AdFilterBounds` | src/novel_crawler/impl/UjNovelCrawler.py:171-178 | the filter removes at most seven lines, and removes none when no line has a keyword |
| `UjChapters.ChapterContentClean` | src/novel_crawler/impl/UjNovelCrawler.py:170-178 | chapter text with no advertisement line comes back unchanged after the split, filter and join |
| `UjChapters.ChapterContentLines` | src/novel_crawler/impl/UjNovelCrawler.py:169-178 | the cleaned chapter is the join of the cleaned head, the untouched interior and the cleaned tail |
| `UjChapters.ChapterContentShort` | src/novel_crawler/impl/UjNovelCrawler.py:169-178 | a chapter of at most seven lines loses every advertisement line, wherever it stands |
| `UjChapters.ChapterContent` | src/novel_crawler/impl/UjNovelCrawler.py:156-185 | a failed fetch or a missing content block gives ""; otherwise the result has no more lines than the page, and each of its lines is a line of the page |
| `UjDiscovery.ListingRef` | src/novel_crawler/impl/UjNovelCrawler.py:303-310 | an entry gives a reference exactly when it has a title link; the author defaults to 佚名 |
| `UjDiscovery.Examined` | src/novel_crawler/impl/UjNovelCrawler.py:299-301 | the loop looks at no more entries than exist or than `top_n`, and stops early only because of `top_n` |
| `UjDiscovery.KeywordSearch` | src/novel_crawler/impl/UjNovelCrawler.py:278-314 | a failed search gives []; there are at most min(top_n, entries) results, each under the site root, each from one of the first `top_n` entries |
| `UjDiscovery.KeywordSearchGrows` | src/novel_crawler/impl/UjNovelCrawler.py:299-301 | the results for `n` are a prefix of the results for `n + 1` |
| `UjDiscovery.KeywordSearchPrefix` | src/novel_crawler/impl/UjNovelCrawler.py:299-305 | for a limit n within the entry count, cutting the entries after the first n does not change the results |
| `UjDiscovery.KeywordSearchDefault` | src/novel_crawler/impl/UjNovelCrawler.py:278-311 | with the default `top_n` of 5 and at least five entries, the results are the titled entries among the first five, in page order |
| `UjDiscovery.KeywordSearchUnlimited` | src/novel_crawler/impl/UjNovelCrawler.py:296-311 | with `top_n` at least the entry count, every titled entry is returned in page order |
| `UjDiscovery.KeywordSearchAnonymous` | src/novel_crawler/impl/UjNovelCrawler.py:308-310 | an entry without an author link appears at its position with author 佚名 |
| `UjDiscovery.AuthorUrl` | src/novel_crawler/impl/UjNovelCrawler.py:248 | the search URL is the base URL followed by "author/" and the author |
| `UjDiscovery.AuthorSearch` | src/novel_crawler/impl/UjNovelCrawler.py:242-273 | a failed page gives []; a single row with fewer than two cells gives []; results are no more than the rows and all carry the queried author |
| `UjDiscovery.AuthorSearchAppend` | src/novel_crawler/impl/UjNovelCrawler.py:261-269 | on rows with at least two cells each, the rows are searched independently and in table order: the results for `a + b` are those for `a` followed by those for `b` |
| `UjDiscovery.AuthorSearchRow` | src/novel_crawler/impl/UjNovelCrawler.py:262-269 | a row whose second cell has no link contributes nothing; otherwise it contributes that link's title and href with the queried author, exactly at the row's place |
| `UjDiscovery.MatchAt` | src/novel_crawler/impl/UjNovelCrawler.py:208 | the pattern can only match where the text has the marker 第 |
| `UjDiscovery.MatchAtShape` | src/novel_crawler/impl/UjNovelCrawler.py:208 | a match has the pattern's whole shape: 第, whitespace, a non-empty digit run, whitespace, '/', whitespace, a non-empty digit run, whitespace and 页, and its total is the value of the second digit run |
| `UjDiscovery.SkipRun` | src/novel_crawler/impl/UjNovelCrawler.py:208 | a greedy `\s*` or `\d*` consumes only characters of its class |
| `UjDiscovery.SearchFromLeftmost` | src/novel_crawler/impl/UjNovelCrawler.py:208 | `re.search` returns the match at the leftmost position where the pattern matches, and nothing only when it matches at no position |
| `UjDiscovery.SearchFromFound` | src/novel_crawler/impl/UjNovelCrawler.py:208 | a found total is the match at some position, with no match at any earlier position |
| `UjDiscovery.SearchFromNone` | src/novel_crawler/impl/UjNovelCrawler.py:208 | finding nothing means the pattern matches at no position |
| `UjDiscovery.NoMatchBetweenAll` | src/novel_crawler/impl/UjNovelCrawler.py:208 | the position-by-position "no match" check holds exactly when no position in the range matches |
| `UjDiscovery.NoMarkerNoMatch` | src/novel_crawler/impl/UjNovelCrawler.py:208 | a stretch of text without the marker 第 holds no match |
| `UjDiscovery.SearchSkips` | src/novel_crawler/impl/UjNovelCrawler.py:208 | positions where the pattern does not match are passed over: the search from the start of such a stretch gives what the search from its end gives |
| `UjDiscovery.TotalPages` | src/novel_crawler/impl/UjNovelCrawler.py:207-209 | a positive page count needs page-link text containing the marker 第 |
| `UjDiscovery.TotalPagesWithoutMarker` | src/novel_crawler/impl/UjNovelCrawler.py:207-209 | with no page-link text, or no 第 in it, the page count is 0 |
| `UjDiscovery.TotalPagesWithoutSlash` | src/novel_crawler/impl/UjNovelCrawler.py:208-209 | "第3页", a 第 with a number but no "/ Y", gives 0 pages |
| `UjDiscovery.TotalPagesOfIndicator` | src/novel_crawler/impl/UjNovelCrawler.py:208-209 | "第 X / Y 页", with any whitespace inside, any text without 第 before it and any text after it, gives Y pages |
| `UjDiscovery.TotalPagesAfterLead` | src/novel_crawler/impl/UjNovelCrawler.py:208-209 | "第 X / Y 页" gives Y when the pattern matches at no position before it, even if 第 occurs there |
| `UjDiscovery.TotalPagesAfterChapterTitle` | src/novel_crawler/impl/UjNovelCrawler.py:208-209 | "第一章 第1/5页" gives 5 pages: the 第 of the chapter title starts no match and is passed over |
| `UjDiscovery.PageUrls` | src/novel_crawler/impl/UjNovelCrawler.py:219-220 | one URL per page, Y in all, each under the tag URL and ending in a slash |
| `UjDiscovery.PageUrlNumber` | src/novel_crawler/impl/UjNovelCrawler.py:219-220 | the k-th page URL is the tag URL, the digits of k + 1 and a slash, and the page number reads back from it |
| `UjDiscovery.PageUrlsDistinct` | src/novel_crawler/impl/UjNovelCrawler.py:219-220 | no page URL is requested twice |
| `UjDiscovery.TagSearch` | src/novel_crawler/impl/UjNovelCrawler.py:187-237 | a tag outside the list, or a failed first page, gives [] |
| `UjDiscovery.TagSearchUnknownTag` | src/novel_crawler/impl/UjNovelCrawler.py:195-197 | a tag outside the list gives [] whatever the pages would contain |
| `UjDiscovery.TagSearchPageFailure` | src/novel_crawler/impl/UjNovelCrawler.py:219-237 | one failed listing page empties the whole result |
| `UjDiscovery.TagSearchInPageOrder` | src/novel_crawler/impl/UjNovelCrawler.py:219-233 | for a known tag whose listing pages 1..Y all arrive, the concurrent result equals reading the pages one after another: page 1's novels, then page 2's, up to page Y |
| `UjPersist.NovelPath` | src/novel_crawler/impl/UjNovelCrawler.py:343 | the path starts with the base path and ends in ".txt" |
| `UjPersist.NovelPathInjective` | src/novel_crawler/impl/UjNovelCrawler.py:343 | when tags have no '/' and titles no '_', two novels share a path only if tag, title and author all agree |
| `UjPersist.NovelPathCollision` | src/novel_crawler/impl/UjNovelCrawler.py:343 | otherwise different novels can share a path: title `t_p` by author `a` and title `t` by author `p_a` in the same tag write to the same file |
| `UjPersist.Body` | src/novel_crawler/impl/UjNovelCrawler.py:345-347 | the body is empty exactly when there is no chapter or no content, and has at least three characters per `zip` pair |
| `UjPersist.BodyAppend` | src/novel_crawler/impl/UjNovelCrawler.py:345-347 | a chapter added at the end of the outline adds its title, content and blank line at the end of the body |
| `UjPersist.BodyTruncates` | src/novel_crawler/impl/UjNovelCrawler.py:346 | `zip` pairs only as many chapters and contents as the shorter list holds |
| `UjPersist.BodyPrefix` | src/novel_crawler/impl/UjNovelCrawler.py:345-347 | the body of the first k chapters is a prefix of the whole body |
| `UjPersist.AppendToFile` | src/novel_crawler/impl/UjNovelCrawler.py:336-347 | the file is created empty when missing; earlier contents stay as a prefix; no other file changes |
| `UjPersist.AppendTwice` | src/novel_crawler/impl/UjNovelCrawler.py:341-345 | saving twice leaves the body in the file twice |
| `UjPersist.FetchContents` | src/novel_crawler/impl/UjNovelCrawler.py:332-334 | one content per chapter, at the chapter's position, fetched from that chapter's URL; a failed fetch gives "" there and nowhere else |
| `UjPersist.FetchContentsSequential` | src/novel_crawler/impl/UjNovelCrawler.py:332-334 | the order-preserving gather of the chapter texts equals fetching them one after another, first chapter first: the same texts in outline order |
| `UjPersist.SaveNovelUnchecked` | src/novel_crawler/impl/UjNovelCrawler.py:319-347 | whatever the metadata, the file at the path built from it exists afterwards and gains, after its earlier contents, one block per catalogue chapter with the texts fetched one after another; no other file changes |
| `UjPersist.SaveNovelAgrees` | src/novel_crawler/impl/UjNovelCrawler.py:319-347 | for metadata that was read, the checked save equals the save as written; for the sentinel, the checked save changes nothing while the save as written creates a missing stray file |
| `UjPersist.SaveNovelUncheckedStrayFile` | src/novel_crawler/impl/UjNovelCrawler.py:326-347 | a failed detail page still creates the file `base + "/_.txt"` |
| `UjPersist.SaveNovel` | src/novel_crawler/impl/UjNovelCrawler.py:319-352 | sentinel metadata leaves the file system unchanged; otherwise only the novel's own file changes |
| `UjPersist.SaveNovelInOutlineOrder` | src/novel_crawler/impl/UjNovelCrawler.py:329-347 | failed metadata leaves the files as they were; otherwise only the novel's file changes, gaining after its earlier contents one block per catalogue chapter, in catalogue order, holding the cleaned texts fetched one after another from the chapters' own URLs |
| `UjSite.AbsoluteUrl` | src/novel_crawler/impl/UjNovelCrawler.py:144 | a scraped link is made absolute by prefixing `base_url[:-1]`, and the href is recoverable |
| `CrawlerFactory.EmptyRegistry` | src/novel_crawler/NovelCrawlerFactory.py:204 | the registry starts with no site |
| `CrawlerFactory.Register` | src/novel_crawler/NovelCrawlerFactory.py:207-215 | the name now maps to the given class, the key set grows by that name only, and every other mapping is unchanged |
| `CrawlerFactory.Create` | src/novel_crawler/NovelCrawlerFactory.py:218-231 | `create` succeeds exactly when the name is registered with a non-None class, instantiates that class, and otherwise reports the name as not found |
| `CrawlerFactory.RegisterThenCreate` | src/novel_crawler/NovelCrawlerFactory.py:207-231 | after registering a class, `create` by that name instantiates it |
| `CrawlerFactory.RegisterOverwrites` | src/novel_crawler/NovelCrawlerFactory.py:215 | re-registering a name replaces the earlier class completely |
| `CrawlerFactory.RegisterIsolated` | src/novel_crawler/NovelCrawlerFactory.py:215 | registering one name never changes what `create` gives for another name |
| `CrawlerFactory.RegisterCommutes` | src/novel_crawler/NovelCrawlerFactory.py:215 | registrations under distinct names commute |
| `CrawlerFactory.RegisterNoneFails` | src/novel_crawler/NovelCrawlerFactory.py:228-230 | registering `None` makes `create` fail as if the name were unknown |
| `CrawlerFactory.RegisterAllLastWins` | src/novel_crawler/NovelCrawlerFactory.py:204-231 | after a series of registrations, `create` by a name instantiates the class of that name's last registration, and a name never registered behaves as before |
| `CrawlerFactory.LastRegisteredAt` | src/novel_crawler/NovelCrawlerFactory.py:215 | the registration at position i counts as the last one for its name when no later registration uses that name |
| `CrawlerFactory.LastRegisteredNever` | src/novel_crawler/NovelCrawlerFactory.py:215 | a name that no registration uses has no last registration |
| `Strings.Split` | src/novel_crawler/impl/UjNovelCrawler.py:49 | `split` always returns at least one piece, and no piece contains the separator |
| `Strings.JoinSplit` | src/novel_crawler/impl/UjNovelCrawler.py:171-178 | joining the pieces of a split gives back the text |
| `Strings.SplitAppendPlain` | src/novel_crawler/impl/UjNovelCrawler.py:171-178 | appending separator-free text to a string only extends the last piece of its split |
| `Strings.SplitJoin` | src/novel_crawler/impl/UjNovelCrawler.py:171-178 | splitting a join of separator-free pieces gives back the pieces |
| `Strings.RemoveAll` | src/novel_crawler/impl/UjNovelCrawler.py:68 | `replace(p, '')` never lengthens the text and introduces no new character; text without `p` is unchanged, text with `p` loses at least `\|p\|` characters, and a one-character pattern is gone from the result |
| `Strings.RemoveAllLeading` | src/novel_crawler/impl/UjNovelCrawler.py:83 | a leading occurrence of the pattern is removed and the rest is treated on its own |
| `Strings.RemoveAllTrailing` | src/novel_crawler/impl/UjNovelCrawler.py:49 | when the pattern's first character does not occur earlier, `(s + p).replace(p, '')` is `s` |
| `Strings.RemoveAllKeeps` | src/novel_crawler/impl/UjNovelCrawler.py:68 | characters outside the pattern survive the removal |
| `Strings.StripRemovesOnlySpace` | src/novel_crawler/impl/UjNovelCrawler.py:66 | `strip()` removes only leading and trailing whitespace |
| `Strings.ParseShow` | src/novel_crawler/impl/UjNovelCrawler.py:209-219 | `int(str(n)) == n` for every natural n |

## Left out

- Network access and HTML parsing (`aiohttp`, `_prepare_resources`, BeautifulSoup lookups, response status checks) are foreign libraries. Their output enters as records, with `None` for a failed fetch or a missing element.
- Author search: a non-200 status and an empty page text are folded into the `None` page, since both end in [].
- Concurrency (`asyncio.Semaphore`, the real scheduling of `asyncio.gather`, session closing) cannot be verified sequentially. `gather` is modelled as the order-preserving `Seqs.Gather`.
- The clock and `strptime` are replaced by the `daysSince` parameter. The random sleep between page fetches is timing only.
- The file system is modelled without directories and without I/O errors. `mkdir` and the caught write failure are left out.
- `UjMetadata.WordCount`: Python's `int()` also accepts surrounding whitespace, a sign, underscores and non-ASCII decimal digits. The model accepts only non-empty ASCII digit strings and treats anything else as the failure path.
- `UjDiscovery.MatchAt`: the regular expression's `\d` also matches non-ASCII decimal digits, and the model matches only ASCII digits.
- `get_novel_list_by_rank_async` always returns [] and is not modelled. The tag listing accepts a sort strategy and `top_n` but never uses them, and `SortStrategy` is not modelled.
- The abstract `BaseNovelCrawler` only declares signatures. The model has the one concrete crawler and no interface type.
- The stub `QidianNovelCrawler.py` and the driver scripts under `src/mytest/` are not part of this model.
- Log output (`print`) is not modelled.

## Findings

| source | as written | input that shows it | evidently intended | confidence | as-written member | corrected member |
|---|---|---|---|---|---|---|
| src/novel_crawler/impl/UjNovelCrawler.py:329-344 | `write_novel_content_to_file` never checks whether the metadata is the failure sentinel. It builds the path from the sentinel's empty tag, title and author, then creates that file | a detail URL whose page cannot be fetched or parsed, saved under `base`: the file `base + "/_.txt"` is created (or appended to) | a novel whose metadata failed is skipped and no file is created | medium, not executed | `UjPersist.SaveNovelUnchecked` (shown by `UjPersist.SaveNovelUncheckedStrayFile`) | `UjPersist.SaveNovel` (proved by its contract and `UjPersist.SaveNovelInOutlineOrder`) |

=== FILE: chapters.dfy ===
/** The chapter catalogue and the cleanup of one chapter's text. */
module UjChapters {
  import opened Wrappers
  import opened Strings
  import opened Seqs
  import opened UjSite
  import opened CrawlerFactory

  /** One `<li>` of the catalogue: its CSS classes and its first link. */
  datatype CatalogItem = CatalogItem(classes: seq<string>, link: Option<Anchor>)

  /** The chapter an item stands for: none for a volume heading (class
      "fj") or an item without a link; otherwise the link text and the link
      made absolute. */
  function ChapterOf(item: CatalogItem): (r: Option<ChapterRef>)
    ensures r.Some? <==> "fj" !in item.classes && item.link.Some?
    ensures r.Some? ==> r.value.title == item.link.value.text
                        && r.value.url == SiteRoot + item.link.value.href
  {
    if "fj" in item.classes then None
    else
      match item.link
      case None => None
      case Some(a) => Some(ChapterRef(a.text, AbsoluteUrl(a.href)))
  }

  /** `get_novel_chapters_list_async` on the fetched catalogue: `None` is a
      failed fetch or a page without the list, which gives no chapters. */
  function ChapterList(catalog: Option<seq<CatalogItem>>): (r: seq<ChapterRef>)
    ensures catalog.None? ==> r == []
    ensures catalog.Some? ==> |r| <= |catalog.value|
    ensures catalog.Some? ==> forall c :: c in r ==>
              exists item :: item in catalog.value && ChapterOf(item) == Some(c)
    ensures forall k :: 0 <= k < |r| ==> StartsWith(r[k].url, SiteRoot)
  {
    match catalog
    case None => []
    case Some(items) =>
      var r := FilterMap(items, ChapterOf);
      assert forall k :: 0 <= k < |r| ==> r[k] in r;
      r
  }

  /** The catalogue is read in order: the chapters of two consecutive runs of
      items are those of the first run followed by those of the second. */
  lemma ChapterListAppend(a: seq<CatalogItem>, b: seq<CatalogItem>)
    ensures ChapterList(Some(a + b)) == ChapterList(Some(a)) + ChapterList(Some(b))
  {
    FilterMapAppend(a, b, ChapterOf);
  }

  /** A skipped item contributes nothing; a kept one contributes its chapter
      exactly at its place among the others. */
  lemma ChapterListItem(before: seq<CatalogItem>, item: CatalogItem, after: seq<CatalogItem>)
    ensures var all := ChapterList(Some(before + [item] + after));
            var pre, post := ChapterList(Some(before)), ChapterList(Some(after));
            if "fj" in item.classes || item.link.None? then all == pre + post
            else all == pre + [ChapterRef(item.link.value.text, SiteRoot + item.link.value.href)] + post
  {
    FilterMapMiddle(before, item, after, ChapterOf);
    var pre := ChapterList(Some(before));
    if "fj" in item.classes || item.link.None? {
      assert ChapterOf(item) == None;
      assert pre + [] == pre;
    } else {
      assert ChapterOf(item) == Some(ChapterRef(item.link.value.text, SiteRoot + item.link.value.href));
    }
  }

  // ---------------------------------------------------------------------------
  // Advertisement lines

  const AdKeywords: seq<string> := ["最新网址", "免费小说无弹窗", "悠久小説網", "全集TXT电子书免费下载"]

  predicate HasAdKeyword(line: string) {
    exists k :: 0 <= k < |AdKeywords| && Contains(line, AdKeywords[k])
  }

  /** Line `i` of `n` lies in the head (first four lines) or the tail (last
      three lines), the only places advertisements are looked for. */
  predicate AtEdge(n: int, i: int) {
    i <= 3 || i >= n - 3
  }

  /** The lines from `i` on that the filter keeps, in order, when `isAd`
      tells advertisement lines apart. */
  function KeptFrom(lines: seq<string>, i: nat, isAd: string -> bool): (kept: seq<string>)
    requires i <= |lines|
    ensures |kept| <= |lines| - i
    ensures forall k :: 0 <= k < |kept| ==> kept[k] in lines
    decreases |lines| - i
  {
    if i == |lines| then []
    else (if AtEdge(|lines|, i) && isAd(lines[i]) then [] else [lines[i]]) + KeptFrom(lines, i + 1, isAd)
  }

  /** The advertisement filter of `get_novel_chapter_content_async`. */
  function AdFilter(lines: seq<string>): (kept: seq<string>)
    ensures |kept| <= |lines|
    ensures forall k :: 0 <= k < |kept| ==> kept[k] in lines
  {
    KeptFrom(lines, 0, HasAdKeyword)
  }

  /** Reference definition: drop every line `isAd` accepts, wherever it is. */
  function DropWhere(lines: seq<string>, isAd: string -> bool): (kept: seq<string>)
    ensures |kept| <= |lines|
    decreases |lines|
  {
    if |lines| == 0 then []
    else (if isAd(lines[0]) then [] else [lines[0]]) + DropWhere(lines[1..], isAd)
  }

  function DropAds(lines: seq<string>): seq<string> {
    DropWhere(lines, HasAdKeyword)
  }

  /** A run of interior lines (none of the first four or the last three) is
      copied unchanged. */
  lemma {:induction false} KeptInterior(lines: seq<string>, i: nat, j: nat, isAd: string -> bool)
    requires 4 <= i <= j <= |lines| - 3
    ensures KeptFrom(lines, i, isAd) == lines[i..j] + KeptFrom(lines, j, isAd)
    decreases j - i
  {
    if i < j {
      var rest := KeptFrom(lines, j, isAd);
      assert KeptFrom(lines, i + 1, isAd) == lines[i + 1..j] + rest by {
        KeptInterior(lines, i + 1, j, isAd);
      }
      assert KeptFrom(lines, i, isAd) == [lines[i]] + KeptFrom(lines, i + 1, isAd) by {
        assert !AtEdge(|lines|, i);
      }
      SliceCons(lines, i, j);
      ConcatAssoc([lines[i]], lines[i + 1..j], rest);
    }
  }

  /** `DropWhere(lines[i..j], isAd)`, walked by index. */
  function DropBetween(lines: seq<string>, i: nat, j: nat, isAd: string -> bool): seq<string>
    requires i <= j <= |lines|
    decreases j - i
  {
    if i == j then [] else (if isAd(lines[i]) then [] else [lines[i]]) + DropBetween(lines, i + 1, j, isAd)
  }

  lemma {:induction false} DropBetweenSlice(lines: seq<string>, i: nat, j: nat, isAd: string -> bool)
    requires i <= j <= |lines|
    ensures DropBetween(lines, i, j, isAd) == DropWhere(lines[i..j], isAd)
    decreases j - i
  {
    if i < j {
      DropBetweenSlice(lines, i + 1, j, isAd);
      assert lines[i..j][0] == lines[i] && lines[i..j][1..] == lines[i + 1..j];
    }
  }

  lemma {:induction false} KeptEdgeBetween(lines: seq<string>, i: nat, j: nat, isAd: string -> bool)
    requires i <= j <= |lines|
    requires forall k :: i <= k < j ==> AtEdge(|lines|, k)
    ensures KeptFrom(lines, i, isAd) == DropBetween(lines, i, j, isAd) + KeptFrom(lines, j, isAd)
    decreases j - i
  {
    if i < j {
      KeptEdgeBetween(lines, i + 1, j, isAd);
      var first := if isAd(lines[i]) then [] else [lines[i]];
      var drop, kept := DropBetween(lines, i + 1, j, isAd), KeptFrom(lines, j, isAd);
      assert KeptFrom(lines, i, isAd) == first + KeptFrom(lines, i + 1, isAd);
      assert DropBetween(lines, i, j, isAd) == first + drop;
      ConcatAssoc(first, drop, kept);
    }
  }

  /** A run of edge lines loses exactly the lines `isAd` accepts. */
  lemma KeptEdge(lines: seq<string>, i: nat, j: nat, isAd: string -> bool)
    requires i <= j <= |lines|
    requires forall k :: i <= k < j ==> AtEdge(|lines|, k)
    ensures KeptFrom(lines, i, isAd) == DropWhere(lines[i..j], isAd) + KeptFrom(lines, j, isAd)
  {
    KeptEdgeBetween(lines, i, j, isAd);
    DropBetweenSlice(lines, i, j, isAd);
  }

  /** Nothing is dropped from lines that `isAd` rejects everywhere. */
  lemma {:induction false} DropWhereNone(lines: seq<string>, isAd: string -> bool)
    requires forall i :: 0 <= i < |lines| ==> !isAd(lines[i])
    ensures DropWhere(lines, isAd) == lines
    decreases |lines|
  {
    if |lines| > 0 {
      DropWhereNone(lines[1..], isAd);
      assert lines == [lines[0]] + lines[1..];
    }
  }

  /** With seven or more lines, the filter removes keyword lines from the
      first four and the last three and copies everything between them. */
  lemma KeptLong(lines: seq<string>, isAd: string -> bool)
    requires |lines| >= 7
    ensures KeptFrom(lines, 0, isAd)
         == DropWhere(lines[..4], isAd) + lines[4..|lines| - 3] + DropWhere(lines[|lines| - 3..], isAd)
  {
    var n := |lines|;
    var head, mid, tail := DropWhere(lines[..4], isAd), lines[4..n - 3], DropWhere(lines[n - 3..], isAd);
    assert KeptFrom(lines, 0, isAd) == head + KeptFrom(lines, 4, isAd) by {
      KeptEdge(lines, 0, 4, isAd);
      assert lines[0..4] == lines[..4];
    }
    assert KeptFrom(lines, 4, isAd) == mid + KeptFrom(lines, n - 3, isAd) by {
      KeptInterior(lines, 4, n - 3, isAd);
    }
    assert KeptFrom(lines, n - 3, isAd) == tail by {
      KeptEdge(lines, n - 3, n, isAd);
      assert lines[n - 3..n] == lines[n - 3..];
      assert KeptFrom(lines, n, isAd) == [];
    }
    ConcatAssoc(head, mid, tail);
  }

  lemma AdFilterLong(lines: seq<string>)
    requires |lines| >= 7
    ensures AdFilter(lines)
         == DropAds(lines[..4]) + lines[4..|lines| - 3] + DropAds(lines[|lines| - 3..])
  {
    KeptLong(lines, HasAdKeyword);
  }


  /** With at most seven lines every line is at an edge. */
  lemma AdFilterShort(lines: seq<string>)
    requires |lines| <= 7
    ensures AdFilter(lines) == DropAds(lines)
  {
    KeptEdge(lines, 0, |lines|, HasAdKeyword);
    assert lines[0..|lines|] == lines;
  }

  lemma DropAdsClean(lines: seq<string>)
    requires forall i :: 0 <= i < |lines| ==> !HasAdKeyword(lines[i])
    ensures DropAds(lines) == lines
  {
    DropWhereNone(lines, HasAdKeyword);
  }

  /** The filter only ever removes lines, at most seven of them, and keeps
      every line when none carries a keyword. */
  lemma AdFilterBounds(lines: seq<string>)
    ensures |lines| - 7 <= |AdFilter(lines)| <= |lines|
    ensures (forall i :: 0 <= i < |lines| ==> !HasAdKeyword(lines[i])) ==> AdFilter(lines) == lines
  {
    var n := |lines|;
    if n >= 7 {
      AdFilterLong(lines);
      assert |DropAds(lines[..4])| <= 4;
      if forall i :: 0 <= i < n ==> !HasAdKeyword(lines[i]) {
        DropAdsClean(lines[..4]);
        DropAdsClean(lines[n - 3..]);
        assert lines[..4] + lines[4..n - 3] + lines[n - 3..] == lines;
      }
    } else {
      AdFilterShort(lines);
      if forall i :: 0 <= i < n ==> !HasAdKeyword(lines[i]) {
        DropAdsClean(lines);
      }
    }
  }

  /** `get_novel_chapter_content_async` on the fetched page: the page text
      split into lines, advertisement lines filtered out, the rest joined
      again. `None` (failed fetch, no content block) gives "". */
  function ChapterContent(page: Option<string>): (content: string)
    ensures page.None? ==> content == ""
    ensures page.Some? ==> |Split(content, '\n')| <= |Split(page.value, '\n')|
    ensures page.Some? && content != "" ==>
              forall line :: line in Split(content, '\n') ==> line in Split(page.value, '\n')
  {
    match page
    case None => ""
    case Some(text) =>
      var lines := Split(text, '\n');
      var kept := AdFilter(lines);
      if |kept| == 0 then ""
      else
        assert forall k :: 0 <= k < |kept| ==> '\n' !in kept[k];
        SplitJoin(kept, '\n');
        Join(kept, '\n')
  }

  /** A chapter without advertisement lines comes through unchanged. */
  lemma ChapterContentClean(text: string)
    requires forall i :: 0 <= i < |Split(text, '\n')| ==> !HasAdKeyword(Split(text, '\n')[i])
    ensures ChapterContent(Some(text)) == text
  {
    AdFilterBounds(Split(text, '\n'));
    JoinSplit(text, '\n');
  }

  /** A chapter of at most seven lines is all edges: every advertisement
      line goes, wherever it stands. */
  lemma ChapterContentShort(text: string)
    requires |Split(text, '\n')| <= 7
    ensures ChapterContent(Some(text)) == Join(DropAds(Split(text, '\n')), '\n')
  {
    AdFilterShort(Split(text, '\n'));
  }

  /** The lines of the cleaned chapter, when it has seven or more: the
      cleaned head, the untouched interior and the cleaned tail. */
  lemma ChapterContentLines(text: string)
    requires |Split(text, '\n')| >= 7
    ensures var lines := Split(text, '\n');
            var n := |lines|;
            var kept := DropAds(lines[..4]) + lines[4..n - 3] + DropAds(lines[n - 3..]);
            ChapterContent(Some(text)) == Join(kept, '\n')
  {
    var lines := Split(text, '\n');
    var n := |lines|;
    AdFilterLong(lines);
    assert AdFilter(lines) == DropAds(lines[..4]) + lines[4..n - 3] + DropAds(lines[n - 3..]);
  }
}

=== FILE: discovery.dfy ===
/** Discovery: turning a tag, an author or a keyword into novel references. */
module UjDiscovery {
  import opened Wrappers
  import opened Strings
  import opened Seqs
  import opened UjSite
  import opened CrawlerFactory

  /** One entry of a listing or search-result page: its title link, if any,
      and its author link text, if any. */
  datatype Listing = Listing(title: Option<Anchor>, author: Option<string>)

  /** The reference an entry stands for, its link prefixed by `prefix`:
      none without a title link, and the anonymous author when no author is
      named. */
  function ListingRef(item: Listing, prefix: string): (r: Option<NovelRef>)
    ensures r.Some? <==> item.title.Some?
    ensures r.Some? ==> && r.value.title == item.title.value.text
                        && r.value.detailUrl == prefix + item.title.value.href
                        && r.value.author == (if item.author.Some? then item.author.value else AnonymousAuthor)
  {
    match item.title
    case None => None
    case Some(a) => Some(NovelRef(a.text, item.author.GetOr(AnonymousAuthor), prefix + a.href))
  }

  // ---------------------------------------------------------------------------
  // Keyword search

  const DefaultTopN: int := 5

  /** How many result entries the loop looks at before `i >= top_n` stops it. */
  function Examined(count: nat, topN: int): (n: nat)
    ensures n <= count && (topN >= 0 ==> n <= topN)
    ensures n < count ==> n == (if topN < 0 then 0 else topN)
  {
    if topN <= 0 then 0 else if topN < count then topN else count
  }

  function KeywordRef(item: Listing): Option<NovelRef> {
    ListingRef(item, SiteRoot)
  }

  /** `get_novel_list_by_keyword_async` on the search-result entries: only
      the first `top_n` entries are looked at, an entry without a title link
      is skipped but still uses up its place, and a failed search (`None`)
      or an empty one gives no results. */
  function KeywordSearch(results: Option<seq<Listing>>, topN: int): (r: seq<NovelRef>)
    ensures results.None? ==> r == []
    ensures results.Some? ==> |r| <= |results.value|
    ensures topN >= 0 ==> |r| <= topN
    ensures forall k :: 0 <= k < |r| ==> StartsWith(r[k].detailUrl, SiteRoot)
    ensures results.Some? ==> forall novel :: novel in r ==>
              exists item :: item in results.value[..Examined(|results.value|, topN)]
                             && ListingRef(item, SiteRoot) == Some(novel)
  {
    match results
    case None => []
    case Some(items) =>
      if |items| == 0 then []
      else
        var r := FilterMap(items[..Examined(|items|, topN)], KeywordRef);
        assert forall k :: 0 <= k < |r| ==> r[k] in r;
        r
  }

  /** Asking for one more result never changes the earlier ones: the results
      for `n` are a prefix of those for `n + 1`. */
  lemma KeywordSearchGrows(items: seq<Listing>, n: nat)
    ensures var small, large := KeywordSearch(Some(items), n), KeywordSearch(Some(items), n + 1);
            |small| <= |large| && large[..|small|] == small
  {
    if n < |items| {
      assert items[..n + 1] == items[..n] + [items[n]];
      FilterMapAppend(items[..n], [items[n]], KeywordRef);
    } else {
      assert Examined(|items|, n) == Examined(|items|, n + 1);
    }
  }

  /** With a limit of at least the number of entries, every titled entry is
      returned, in page order. */
  lemma KeywordSearchUnlimited(items: seq<Listing>, topN: int)
    requires topN >= |items|
    ensures KeywordSearch(Some(items), topN) == FilterMap(items, KeywordRef)
  {
    assert Examined(|items|, topN) == |items|;
    assert items[..|items|] == items;
  }

  /** Only the first `n` entries matter: the entries past the limit can be
      cut off without changing the results. */
  lemma KeywordSearchPrefix(items: seq<Listing>, n: int)
    requires 0 < n <= |items|
    ensures KeywordSearch(Some(items), n) == KeywordSearch(Some(items[..n]), n)
  {
    assert Examined(|items|, n) == n == Examined(|items[..n]|, n);
    assert items[..n][..n] == items[..n];
  }

  /** With the default limit of five, the results are exactly the titled
      entries among the first five, in page order. */
  lemma KeywordSearchDefault(items: seq<Listing>)
    requires |items| >= DefaultTopN
    ensures KeywordSearch(Some(items), DefaultTopN) == FilterMap(items[..5], KeywordRef)
  {
    assert Examined(|items|, DefaultTopN) == 5;
  }

  /** An entry without an author link is credited to the anonymous author. */
  lemma KeywordSearchAnonymous(items: seq<Listing>, topN: int, i: nat)
    requires i < |items| && i < topN
    requires items[i].title.Some? && items[i].author.None?
    requires forall j :: 0 <= j < i ==> items[j].title.Some?
    ensures var r := KeywordSearch(Some(items), topN);
            i < |r| && r[i].author == AnonymousAuthor
  {
    var m := Examined(|items|, topN);
    var before, after := items[..i], items[i + 1..m];
    assert items[..m] == before + [items[i]] + after;
    FilterMapMiddle(before, items[i], after, KeywordRef);
    FilterMapAllKept(before, KeywordRef);
  }

  // ---------------------------------------------------------------------------
  // Author search

  /** One row of the author's book table: the first link of each cell. */
  datatype AuthorRow = AuthorRow(cells: seq<Option<Anchor>>)

  function AuthorUrl(author: string): (url: string)
    ensures StartsWith(url, BaseUrl) && url[|BaseUrl|..] == "author/" + author
  {
    BaseUrl + "author/" + author
  }

  function AuthorRowRef(author: string, row: AuthorRow): Option<NovelRef>
    requires |row.cells| >= 2
  {
    match row.cells[1]
    case None => None
    case Some(a) => Some(NovelRef(a.text, author, a.href))
  }

  /** The per-row step of the author search, as one function value so that
      lemmas can name it. */
  function AuthorPick(author: string): AuthorRow -> Option<NovelRef> {
    (row: AuthorRow) => if |row.cells| < 2 then None else AuthorRowRef(author, row)
  }

  predicate WellFormedRows(rows: seq<AuthorRow>) {
    forall i :: 0 <= i < |rows| ==> |rows[i].cells| >= 2
  }

  /** `get_novel_list_by_author_async` on the rows of the author page: the
      title link of each row's second cell, credited to the queried author.
      A failed or empty page (`None`) gives nothing, and so does a single row
      with fewer than two cells, since its `IndexError` abandons the whole
      list. */
  function AuthorSearch(author: string, rows: Option<seq<AuthorRow>>): (r: seq<NovelRef>)
    ensures rows.None? ==> r == []
    ensures rows.Some? ==> |r| <= |rows.value|
    ensures rows.Some? && (exists i :: 0 <= i < |rows.value| && |rows.value[i].cells| < 2) ==> r == []
    ensures forall k :: 0 <= k < |r| ==> r[k].author == author
  {
    match rows
    case None => []
    case Some(rs) =>
      if exists i :: 0 <= i < |rs| && |rs[i].cells| < 2 then []
      else
        var r := FilterMap(rs, AuthorPick(author));
        assert forall k :: 0 <= k < |r| ==> r[k] in r;
        r
  }

  /** On a well-formed table the rows are searched independently: the
      results for two consecutive blocks of rows are the results for each. */
  lemma AuthorSearchAppend(author: string, a: seq<AuthorRow>, b: seq<AuthorRow>)
    requires WellFormedRows(a) && WellFormedRows(b)
    ensures AuthorSearch(author, Some(a + b)) == AuthorSearch(author, Some(a)) + AuthorSearch(author, Some(b))
  {
    WellFormedAppend(a, b);
    AuthorSearchFiltered(author, a);
    AuthorSearchFiltered(author, b);
    AuthorSearchFiltered(author, a + b);
    FilterMapAppend(a, b, AuthorPick(author));
  }

  lemma AuthorSearchFiltered(author: string, rows: seq<AuthorRow>)
    requires WellFormedRows(rows)
    ensures AuthorSearch(author, Some(rows)) == FilterMap(rows, AuthorPick(author))
  {
  }

  lemma WellFormedAppend(a: seq<AuthorRow>, b: seq<AuthorRow>)
    requires WellFormedRows(a) && WellFormedRows(b)
    ensures WellFormedRows(a + b)
  {
    forall i | 0 <= i < |a + b| ensures |(a + b)[i].cells| >= 2 {
      if i >= |a| { assert (a + b)[i] == b[i - |a|]; }
    }
  }

  /** A row whose second cell has no link contributes nothing; one with a
      link contributes that link's title and address, credited to the queried
      author, exactly at the row's place among the others. */
  lemma AuthorSearchRow(author: string, before: seq<AuthorRow>, row: AuthorRow, after: seq<AuthorRow>)
    requires WellFormedRows(before) && |row.cells| >= 2 && WellFormedRows(after)
    ensures var all := AuthorSearch(author, Some(before + [row] + after));
            var pre, post := AuthorSearch(author, Some(before)), AuthorSearch(author, Some(after));
            match row.cells[1]
            case None => all == pre + post
            case Some(link) => all == pre + [NovelRef(link.text, author, link.href)] + post
  {
    WellFormedAppend(before, [row]);
    WellFormedAppend(before + [row], after);
    AuthorSearchFiltered(author, before + [row] + after);
    AuthorSearchFiltered(author, before);
    AuthorSearchFiltered(author, after);
    AuthorPickMiddle(author, before, row, after);
  }

  /** The filtering step of `AuthorSearchRow`, stated on the per-row pick. */
  lemma AuthorPickMiddle(author: string, before: seq<AuthorRow>, row: AuthorRow, after: seq<AuthorRow>)
    requires |row.cells| >= 2
    ensures var pick := AuthorPick(author);
            var all, pre, post := FilterMap(before + [row] + after, pick), FilterMap(before, pick), FilterMap(after, pick);
            match row.cells[1]
            case None => all == pre + post
            case Some(link) => all == pre + [NovelRef(link.text, author, link.href)] + post
  {
    var pick := AuthorPick(author);
    match row.cells[1]
    case None =>
      assert pick(row) == None;
      FilterMapMiddle(before, row, after, pick);
    case Some(link) =>
      assert pick(row) == Some(NovelRef(link.text, author, link.href));
      FilterMapMiddle(before, row, after, pick);
  }

  // ---------------------------------------------------------------------------
  // Tag listing: page count and page URLs

  /** First position at or after `i` whose character `p` rejects: the
      longest run of `p`-characters, as a greedy `[...]*` takes it. */
  function SkipWhile(s: string, i: nat, p: char -> bool): (j: nat)
    requires i <= |s|
    ensures i <= j <= |s| && (j == |s| || !p(s[j]))
    decreases |s| - i
  {
    if i < |s| && p(s[i]) then SkipWhile(s, i + 1, p) else i
  }

  /** `\s*` from position `i`. */
  function SkipSpaces(s: string, i: nat): nat
    requires i <= |s|
  {
    SkipWhile(s, i, IsSpace)
  }

  /** `\d*` from position `i`. */
  function SkipDigits(s: string, i: nat): nat
    requires i <= |s|
  {
    SkipWhile(s, i, IsDigit)
  }

  /** The page indicator regular expression tried at position `i`: the
      marker 第, optional whitespace, digits, optional whitespace, a slash,
      optional whitespace, the captured digits, optional whitespace and the
      character 页. The result is the captured total. Each `\s*` and `\d+` is
      followed by a character it cannot match, so taking the longest run at
      every step is the only way the pattern can match. */
  function MatchAt(s: string, i: nat): (r: Option<nat>)
    requires i <= |s|
    ensures r.Some? ==> i < |s| && s[i] == '第'
  {
    if i < |s| && s[i] == '第' then MatchFields(s, i + 1) else None
  }

  /** The rest of the pattern, after the marker, from position `k`. */
  function MatchFields(s: string, k: nat): Option<nat>
    requires k <= |s|
  {
    var a := SkipSpaces(s, k);
    var b := SkipDigits(s, a);
    var c := SkipSpaces(s, b);
    if a < b && c < |s| && s[c] == '/' then
      var d := SkipSpaces(s, c + 1);
      var e := SkipDigits(s, d);
      var f := SkipSpaces(s, e);
      if d < e && f < |s| && s[f] == '页' then ParseNat(s[d..e]) else None
    else None
  }

  /** `re.search`: the match starting leftmost. */
  function SearchFrom(s: string, i: nat): Option<nat>
    requires i <= |s|
    decreases |s| - i
  {
    if i == |s| then None
    else
      match MatchAt(s, i)
      case Some(_) => MatchAt(s, i)
      case None => SearchFrom(s, i + 1)
  }

  /** The total page count read from the page-link text: the Y of
      "第 X / Y 页", or 0 when there is no such text. */
  function TotalPages(pageLink: Option<string>): (n: nat)
    ensures n > 0 ==> pageLink.Some? && '第' in pageLink.value
  {
    if '第' !in pageLink.GetOr("") then SearchWithoutMarker(pageLink.GetOr(""), 0); 0
    else match SearchFrom(pageLink.GetOr(""), 0)
    case Some(total) => total
    case None => 0
  }

  lemma {:induction false} SearchWithoutMarker(s: string, i: nat)
    requires i <= |s| && '第' !in s
    ensures SearchFrom(s, i) == None
    decreases |s| - i
  {
    if i < |s| {
      assert s[i] in s;
      SearchWithoutMarker(s, i + 1);
    }
  }

  /** The pattern matches at no position from `i` up to `j`, checked one
      position at a time. */
  predicate NoMatchBetween(s: string, i: nat, j: nat)
    requires i <= j <= |s|
    decreases j - i
  {
    i == j || (MatchAt(s, i).None? && NoMatchBetween(s, i + 1, j))
  }

  /** The position-by-position check is the plain "no position matches". */
  lemma {:induction false} NoMatchBetweenAll(s: string, i: nat, j: nat)
    requires i <= j <= |s|
    ensures NoMatchBetween(s, i, j) <==> forall k :: i <= k < j ==> MatchAt(s, k).None?
    decreases j - i
  {
    if i < j {
      NoMatchBetweenAll(s, i + 1, j);
    }
  }

  /** Text without the marker character holds no match. */
  lemma {:induction false} NoMarkerNoMatch(s: string, i: nat, j: nat)
    requires i <= j <= |s|
    requires forall k :: i <= k < j ==> s[k] != '第'
    ensures NoMatchBetween(s, i, j)
    decreases j - i
  {
    if i < j {
      NoMarkerNoMatch(s, i + 1, j);
    }
  }

  /** The search finds the leftmost position where the pattern matches, and
      finds nothing only when it matches nowhere. */
  lemma {:induction false} SearchFromLeftmost(s: string, i: nat)
    requires i <= |s|
    ensures var r := SearchFrom(s, i);
            && (r.Some? ==> exists k :: i <= k < |s| && MatchAt(s, k) == r && NoMatchBetween(s, i, k))
            && (r.None? ==> NoMatchBetween(s, i, |s|))
  {
    if SearchFrom(s, i).Some? {
      var k := SearchFromFound(s, i);
    } else {
      SearchFromNone(s, i);
    }
  }

  /** A found total comes from a position where the pattern matches, with
      no match before it. */
  lemma {:induction false} SearchFromFound(s: string, i: nat) returns (k: nat)
    requires i <= |s| && SearchFrom(s, i).Some?
    ensures i <= k < |s| && MatchAt(s, k) == SearchFrom(s, i) && NoMatchBetween(s, i, k)
    decreases |s| - i
  {
    assert i < |s|;
    if MatchAt(s, i).Some? {
      k := i;
    } else {
      assert SearchFrom(s, i) == SearchFrom(s, i + 1);
      k := SearchFromFound(s, i + 1);
    }
  }

  /** Nothing found means the pattern matches at no position. */
  lemma {:induction false} SearchFromNone(s: string, i: nat)
    requires i <= |s| && SearchFrom(s, i).None?
    ensures NoMatchBetween(s, i, |s|)
    decreases |s| - i
  {
    if i < |s| {
      assert MatchAt(s, i).None?;
      SearchFromNone(s, i + 1);
    }
  }

  /** Text without the marker is passed over: the search goes on after it. */
  lemma {:induction false} SearchSkips(s: string, i: nat, j: nat)
    requires i <= j <= |s| && NoMatchBetween(s, i, j)
    ensures SearchFrom(s, i) == SearchFrom(s, j)
    decreases j - i
  {
    if i < j {
      SearchSkips(s, i + 1, j);
    }
  }

  /** Without the marker character there is no page count. */
  lemma TotalPagesWithoutMarker(pageLink: Option<string>)
    requires pageLink.None? || '第' !in pageLink.value
    ensures TotalPages(pageLink) == 0
  {
    SearchWithoutMarker(pageLink.GetOr(""), 0);
  }

  /** Every character of `s[i..j]` satisfies `p`. */
  predicate RunOf(s: string, i: nat, j: nat, p: char -> bool)
    requires i <= j <= |s|
  {
    forall k :: i <= k < j ==> p(s[k])
  }

  /** A run of `p`-characters from `i` up to a character `p` rejects (or the
      end) is skipped exactly. */
  lemma {:induction false} SkipTo(s: string, i: nat, j: nat, p: char -> bool)
    requires i <= j <= |s| && RunOf(s, i, j, p) && (j == |s| || !p(s[j]))
    ensures SkipWhile(s, i, p) == j
    decreases j - i
  {
    if i < j {
      assert p(s[i]);
      SkipTo(s, i + 1, j, p);
    }
  }

  /** Skipping stops at the end of a run of `p`-characters. */
  lemma {:induction false} SkipRun(s: string, i: nat, p: char -> bool)
    requires i <= |s|
    ensures RunOf(s, i, SkipWhile(s, i, p), p)
    decreases |s| - i
  {
    if i < |s| && p(s[i]) {
      SkipRun(s, i + 1, p);
    }
  }

  /** The three skips of one number field from `k` end on runs of their
      character classes. */
  lemma FieldRuns(s: string, k: nat) returns (a: nat, b: nat, c: nat)
    requires k <= |s|
    ensures a == SkipSpaces(s, k) && b == SkipDigits(s, a) && c == SkipSpaces(s, b)
    ensures k <= a <= b <= c <= |s|
    ensures RunOf(s, k, a, IsSpace) && RunOf(s, a, b, IsDigit) && RunOf(s, b, c, IsSpace)
  {
    a := SkipSpaces(s, k);
    b := SkipDigits(s, a);
    c := SkipSpaces(s, b);
    SkipRun(s, k, IsSpace);
    SkipRun(s, a, IsDigit);
    SkipRun(s, b, IsSpace);
  }

  /** A match has the full shape of the pattern: 第 at `i`, whitespace, a
      non-empty digit run, whitespace, '/', whitespace, the non-empty
      captured digit run `s[d..e]`, whitespace and 页; the total is the
      value of the captured digits. */
  lemma MatchAtShape(s: string, i: nat) returns (a: nat, b: nat, c: nat, d: nat, e: nat, f: nat)
    requires i <= |s| && MatchAt(s, i).Some?
    ensures i < |s| && s[i] == '第'
    ensures i + 1 <= a < b <= c < |s| && s[c] == '/'
    ensures c + 1 <= d < e <= f < |s| && s[f] == '页'
    ensures RunOf(s, i + 1, a, IsSpace) && RunOf(s, a, b, IsDigit) && RunOf(s, b, c, IsSpace)
    ensures RunOf(s, c + 1, d, IsSpace) && RunOf(s, d, e, IsDigit) && RunOf(s, e, f, IsSpace)
    ensures MatchAt(s, i) == ParseNat(s[d..e])
  {
    assert MatchAt(s, i) == MatchFields(s, i + 1);
    a, b, c := FieldRuns(s, i + 1);
    assert a < b && c < |s| && s[c] == '/';
    d, e, f := FieldRuns(s, c + 1);
    assert d < e && f < |s| && s[f] == '页';
    MatchAtFound(s, i, a, b, c, d, e, f);
  }

  /** One number field read from position `k`: the skips land on the digit
      run `s[a..b]` and then on the character `stop` at `c`. */
  predicate FieldEnds(s: string, k: nat, a: nat, b: nat, c: nat, stop: char)
    requires k <= |s|
  {
    && a == SkipSpaces(s, k) && b == SkipDigits(s, a) && c == SkipSpaces(s, b)
    && a < b && c < |s| && s[c] == stop
  }

  /** Whitespace `s[k..a]`, digits `s[a..b]`, whitespace `s[b..c]` and the
      character `stop`, which is neither: the field reads exactly so. */
  lemma FieldAt(s: string, k: nat, a: nat, b: nat, c: nat, stop: char)
    requires k <= a < b <= c < |s| && s[c] == stop && !IsSpace(stop) && !IsDigit(stop)
    requires RunOf(s, k, a, IsSpace) && RunOf(s, a, b, IsDigit) && RunOf(s, b, c, IsSpace)
    ensures FieldEnds(s, k, a, b, c, stop)
  {
    assert IsDigit(s[a]);
    SkipTo(s, k, a, IsSpace);
    SkipTo(s, a, b, IsDigit);
    SkipTo(s, b, c, IsSpace);
  }

  /** The pattern matches at `i` when both fields read as they must. */
  lemma MatchAtFound(s: string, i: nat, a: nat, b: nat, c: nat, d: nat, e: nat, f: nat)
    requires i < |s| && s[i] == '第' && FieldEnds(s, i + 1, a, b, c, '/')
    requires FieldEnds(s, c + 1, d, e, f, '页')
    ensures MatchAt(s, i) == ParseNat(s[d..e])
  {
  }

  // The layout of a concatenated text, read back by position.

  predicate PrefixOf(pre: string, s: string) {
    |pre| <= |s| && s[..|pre|] == pre
  }

  lemma PrefixStep(pre: string, w: string, s: string)
    requires PrefixOf(pre + w, s)
    ensures PrefixOf(pre, s) && s[|pre|..|pre| + |w|] == w
  {
    assert s[..|pre|] == (pre + w)[..|pre|];
    assert s[|pre|..|pre| + |w|] == (pre + w)[|pre|..];
  }

  /** A piece `w` of the text whose characters all satisfy `p`. */
  lemma PieceRun(pre: string, w: string, s: string, p: char -> bool)
    requires PrefixOf(pre + w, s) && forall k :: 0 <= k < |w| ==> p(w[k])
    ensures RunOf(s, |pre|, |pre| + |w|, p)
  {
    PrefixStep(pre, w, s);
    forall k | |pre| <= k < |pre| + |w|
      ensures p(s[k])
    {
      assert s[k] == s[|pre|..|pre| + |w|][k - |pre|];
    }
  }

  lemma PieceChar(pre: string, ch: char, s: string)
    requires PrefixOf(pre + [ch], s)
    ensures PrefixOf(pre, s) && |pre| < |s| && s[|pre|] == ch
  {
    PrefixStep(pre, [ch], s);
    assert s[|pre|] == s[|pre|..|pre| + 1][0];
  }

  /** The first field of a text that continues after `lead` with "第",
      whitespace, digits, whitespace, "/". */
  lemma FirstField(s: string, lead: string, w1: string, sx: string, w2: string) returns (a: nat, b: nat, c: nat)
    requires AllSpace(w1) && AllSpace(w2) && |sx| > 0 && AllDigits(sx)
    requires PrefixOf(lead + "第" + w1 + sx + w2 + "/", s)
    ensures PrefixOf(lead, s) && |lead| < |s| && s[|lead|] == '第' && FieldEnds(s, |lead| + 1, a, b, c, '/')
    ensures c + 1 == |lead + "第" + w1 + sx + w2 + "/"|
  {
    var p0 := lead + "第";
    var p1 := p0 + w1;
    var p2 := p1 + sx;
    var p3 := p2 + w2;
    assert s[|p3|] == '/' && PrefixOf(p3, s) by { PieceChar(p3, '/', s); }
    assert RunOf(s, |p2|, |p3|, IsSpace) && PrefixOf(p2, s) by { PieceRun(p2, w2, s, IsSpace); PrefixStep(p2, w2, s); }
    assert RunOf(s, |p1|, |p2|, IsDigit) && PrefixOf(p1, s) by { PieceRun(p1, sx, s, IsDigit); PrefixStep(p1, sx, s); }
    assert RunOf(s, |p0|, |p1|, IsSpace) && PrefixOf(p0, s) by { PieceRun(p0, w1, s, IsSpace); PrefixStep(p0, w1, s); }
    assert s[|lead|] == '第' && PrefixOf(lead, s) by { PieceChar(lead, '第', s); }
    a, b, c := |p1|, |p2|, |p3|;
    FieldAt(s, |lead| + 1, a, b, c, '/');
  }

  /** The second field: after a prefix `pre`, whitespace, digits `sy`,
      whitespace, "页". */
  lemma SecondField(s: string, pre: string, w3: string, sy: string, w4: string) returns (d: nat, e: nat, f: nat)
    requires AllSpace(w3) && AllSpace(w4) && |sy| > 0 && AllDigits(sy)
    requires PrefixOf(pre + w3 + sy + w4 + "页", s)
    ensures |pre| <= |s| && FieldEnds(s, |pre|, d, e, f, '页') && s[d..e] == sy && PrefixOf(pre, s)
  {
    var p5 := pre + w3;
    var p6 := p5 + sy;
    var p7 := p6 + w4;
    assert s[|p7|] == '页' && PrefixOf(p7, s) by { PieceChar(p7, '页', s); }
    assert RunOf(s, |p6|, |p7|, IsSpace) && PrefixOf(p6, s) by { PieceRun(p6, w4, s, IsSpace); PrefixStep(p6, w4, s); }
    assert RunOf(s, |p5|, |p6|, IsDigit) && s[|p5|..|p6|] == sy && PrefixOf(p5, s) by {
      PieceRun(p5, sy, s, IsDigit);
      PrefixStep(p5, sy, s);
    }
    assert RunOf(s, |pre|, |p5|, IsSpace) && PrefixOf(pre, s) by { PieceRun(pre, w3, s, IsSpace); PrefixStep(pre, w3, s); }
    d, e, f := |p5|, |p6|, |p7|;
    FieldAt(s, |pre|, d, e, f, '页');
  }

  lemma PrefixOfConcat(a: string, b: string)
    ensures PrefixOf(a, a + b)
  {
    assert (a + b)[..|a|] == a;
  }

  /** The pattern matches where the indicator begins, after `lead`, and
      captures its second number. */
  lemma IndicatorAt(s: string, lead: string, w1: string, sx: string, w2: string, w3: string, sy: string, w4: string)
    requires AllSpace(w1) && AllSpace(w2) && AllSpace(w3) && AllSpace(w4)
    requires |sx| > 0 && AllDigits(sx) && |sy| > 0 && AllDigits(sy)
    requires PrefixOf(lead + "第" + w1 + sx + w2 + "/" + w3 + sy + w4 + "页", s)
    ensures PrefixOf(lead, s) && |lead| < |s| && MatchAt(s, |lead|) == ParseNat(sy)
  {
    var d, e, f := SecondField(s, lead + "第" + w1 + sx + w2 + "/", w3, sy, w4);
    var a, b, c := FirstField(s, lead, w1, sx, w2);
    MatchAtFound(s, |lead|, a, b, c, d, e, f);
  }

  /** "第 X / Y 页", with any whitespace around the numbers and anything
      after it, gives Y pages when the pattern matches nowhere in the text
      before it (a 第 there that does not start a match is passed over). */
  lemma TotalPagesAfterLead(s: string, lead: string, x: nat, y: nat, w1: string, w2: string, w3: string, w4: string, rest: string)
    requires AllSpace(w1) && AllSpace(w2) && AllSpace(w3) && AllSpace(w4)
    requires s == lead + "第" + w1 + ShowNat(x) + w2 + "/" + w3 + ShowNat(y) + w4 + "页" + rest
    requires |lead| <= |s| && NoMatchBetween(s, 0, |lead|)
    ensures TotalPages(Some(s)) == y
  {
    var sx, sy := ShowNat(x), ShowNat(y);
    var text := lead + "第" + w1 + sx + w2 + "/" + w3 + sy + w4 + "页";
    PrefixOfConcat(text, rest);
    IndicatorAt(s, lead, w1, sx, w2, w3, sy, w4);
    SearchSkips(s, 0, |lead|);
    ParseShow(y);
  }

  /** In particular any text without the marker may come before it. */
  lemma TotalPagesOfIndicator(lead: string, x: nat, y: nat, w1: string, w2: string, w3: string, w4: string, rest: string)
    requires '第' !in lead
    requires AllSpace(w1) && AllSpace(w2) && AllSpace(w3) && AllSpace(w4)
    ensures TotalPages(Some(lead + "第" + w1 + ShowNat(x) + w2 + "/" + w3 + ShowNat(y) + w4 + "页" + rest)) == y
  {
    var s := lead + "第" + w1 + ShowNat(x) + w2 + "/" + w3 + ShowNat(y) + w4 + "页" + rest;
    PrefixOfConcat(lead, s[|lead|..]);
    assert s == lead + s[|lead|..];
    assert forall k :: 0 <= k < |lead| ==> s[k] == lead[k];
    NoMarkerNoMatch(s, 0, |lead|);
    TotalPagesAfterLead(s, lead, x, y, w1, w2, w3, w4, rest);
  }

  /** A 第 that does not start a match is passed over: "第一章" before the
      indicator does not hide it. */
  lemma TotalPagesAfterChapterTitle(s: string)
    requires s == "第一章 " + "第" + "" + ShowNat(1) + "" + "/" + "" + ShowNat(5) + "" + "页" + ""
    ensures TotalPages(Some(s)) == 5
  {
    var lead := "第一章 ";
    assert s == lead + s[4..];
    ChapterTitleNoMatch(lead + s[4..]);
    TotalPagesAfterLead(s, lead, 1, 5, "", "", "", "", "");
  }

  /** A 第 followed by a number but no "/ Y" is not an indicator: "第3页"
      gives no page count. */
  lemma TotalPagesWithoutSlash(s: string)
    requires s == "第3页"
    ensures TotalPages(Some(s)) == 0
  {
    assert s[0] == '第' && s[1] == '3' && s[2] == '页';
    assert !IsSpace(s[1]) && IsDigit(s[1]) && !IsDigit(s[2]) && !IsSpace(s[2]);
    SkipTo(s, 1, 1, IsSpace);
    SkipTo(s, 1, 2, IsDigit);
    SkipTo(s, 2, 2, IsSpace);
    assert MatchAt(s, 0).None?;
    assert NoMatchBetween(s, 0, 3);
    SearchSkips(s, 0, 3);
  }

  lemma ChapterTitleNoMatch(s: string)
    requires |s| >= 4 && s[..4] == "第一章 "
    ensures NoMatchBetween(s, 0, 4)
  {
    assert s[1] == '一' && s[2] == '章' && s[3] == ' ' by { assert s[1..4] == "第一章 "[1..]; }
    assert SkipSpaces(s, 1) == 1 && SkipDigits(s, 1) == 1;
  }

  function TagUrl(tag: string): string {
    BaseUrl + tag + "/"
  }

  /** Every listing page, 1 to total: `tag_url + str(k) + '/'` for
      k = 1 .. total, ascending. */
  function PageUrls(tagUrl: string, total: nat): (urls: seq<string>)
    ensures |urls| == total
    ensures forall k :: 0 <= k < total ==> StartsWith(urls[k], tagUrl) && EndsWith(urls[k], "/")
  {
    seq(total, k requires 0 <= k => tagUrl + ShowNat(k + 1) + "/")
  }

  /** The page number can be read back from each URL: the k-th URL (from 0)
      is the tag URL, the decimal digits of k + 1, and a slash. */
  lemma PageUrlNumber(tagUrl: string, total: nat, k: nat)
    requires k < total
    ensures var url := PageUrls(tagUrl, total)[k];
            && |url| > |tagUrl| && StartsWith(url, tagUrl) && EndsWith(url, "/")
            && ParseNat(url[|tagUrl|..|url| - 1]) == Some(k + 1)
  {
    var url := PageUrls(tagUrl, total)[k];
    assert url[|tagUrl|..|url| - 1] == ShowNat(k + 1);
    ParseShow(k + 1);
  }

  /** Every page is requested once: the page URLs are pairwise distinct. */
  lemma PageUrlsDistinct(tagUrl: string, total: nat, i: nat, j: nat)
    requires i < total && j < total && i != j
    ensures PageUrls(tagUrl, total)[i] != PageUrls(tagUrl, total)[j]
  {
    PageUrlNumber(tagUrl, total, i);
    PageUrlNumber(tagUrl, total, j);
  }

  function TagRef(item: Listing): Option<NovelRef> {
    ListingRef(item, "")
  }

  function TagPageRefs(items: seq<Listing>): seq<NovelRef> {
    FilterMap(items, TagRef)
  }

  /** `get_novel_list_by_tag_async`. `landing` is the first listing page: its
      page-link text, or `None` if fetching it failed. `fetch` gives the
      entries of a listing page by URL, `None` on failure; since the pages
      are gathered without catching, one failed page empties the result.
      The `top_n` and sort parameters are accepted but unused. */
  function TagSearch(tag: string, landing: Option<Option<string>>, fetch: string -> Option<seq<Listing>>): (r: seq<NovelRef>)
    ensures tag !in TagsList || landing.None? ==> r == []
  {
    if tag !in TagsList then []
    else
      match landing
      case None => []
      case Some(pageLink) =>
        var pages := Gather(PageUrls(TagUrl(tag), TotalPages(pageLink)), fetch);
        if AllSome(pages) then Flatten(Gather(Values(pages), TagPageRefs)) else []
  }

  /** A tag outside the list is refused before anything is fetched: the
      answer does not depend on the fetched pages at all. */
  lemma TagSearchUnknownTag(tag: string, landing: Option<Option<string>>, fetch1: string -> Option<seq<Listing>>, fetch2: string -> Option<seq<Listing>>)
    requires tag !in TagsList
    ensures TagSearch(tag, landing, fetch1) == TagSearch(tag, landing, fetch2) == []
  {
  }

  /** One failed page fetch empties the whole result. */
  lemma TagSearchPageFailure(tag: string, pageLink: Option<string>, fetch: string -> Option<seq<Listing>>, k: nat)
    requires tag in TagsList
    requires k < TotalPages(pageLink)
    requires fetch(TagUrl(tag) + ShowNat(k + 1) + "/").None?
    ensures TagSearch(tag, Some(pageLink), fetch) == []
  {
    var pages := Gather(PageUrls(TagUrl(tag), TotalPages(pageLink)), fetch);
    assert pages[k].None?;
  }

  /** Reference definition: read listing pages `k + 1` through `total` one
      after another and list each page's novels in turn. */
  function PagesInOrder(tagUrl: string, fetch: string -> Option<seq<Listing>>, k: nat, total: nat): seq<NovelRef>
    decreases total - k
  {
    if k >= total then []
    else TagPageRefs(fetch(tagUrl + ShowNat(k + 1) + "/").GetOr([])) + PagesInOrder(tagUrl, fetch, k + 1, total)
  }

  lemma {:induction false} FlattenPages(refs: seq<seq<NovelRef>>, tagUrl: string, fetch: string -> Option<seq<Listing>>, k: nat)
    requires k <= |refs|
    requires forall i :: k <= i < |refs| ==> refs[i] == TagPageRefs(fetch(tagUrl + ShowNat(i + 1) + "/").GetOr([]))
    ensures Flatten(refs[k..]) == PagesInOrder(tagUrl, fetch, k, |refs|)
    decreases |refs| - k
  {
    if k < |refs| {
      FlattenPages(refs, tagUrl, fetch, k + 1);
      assert refs[k..][0] == refs[k] && refs[k..][1..] == refs[k + 1..];
    } else {
      assert refs[k..] == [];
    }
  }

  /** When every page arrives, the result lists the novels of page 1, then
      page 2, and so on, each page in its own order, as reading the pages
      one after another would. */
  lemma TagSearchInPageOrder(tag: string, pageLink: Option<string>, fetch: string -> Option<seq<Listing>>)
    requires tag in TagsList
    requires forall k :: 1 <= k <= TotalPages(pageLink) ==> fetch(TagUrl(tag) + ShowNat(k) + "/").Some?
    ensures TagSearch(tag, Some(pageLink), fetch) == PagesInOrder(TagUrl(tag), fetch, 0, TotalPages(pageLink))
  {
    var n := TotalPages(pageLink);
    var pages := Gather(PageUrls(TagUrl(tag), n), fetch);
    assert forall i :: 0 <= i < n ==> pages[i] == fetch(TagUrl(tag) + ShowNat(i + 1) + "/");
    assert AllSome(pages);
    var refs := Gather(Values(pages), TagPageRefs);
    FlattenPages(refs, TagUrl(tag), fetch, 0);
    assert refs[0..] == refs;
  }
}

=== FILE: factory.dfy ===
/** The crawler-neutral layer: the records every crawler produces and the
    registry that maps a site name to the crawler class serving it. */
module CrawlerFactory {
  import opened Wrappers

  /** What a crawler learns from a novel's detail page. */
  datatype NovelMetadata = NovelMetadata(
    id: string,            // the novel's identifier on its site
    title: string,
    author: string,
    tag: string,           // the site's category label
    status: string,        // "完结" (completed) or "连载" (ongoing)
    wordCount: nat,
    updateTime: string,    // date of the latest update, as the page shows it
    description: string,
    coverUrl: string,
    catalogUrl: string     // page listing the chapters
  )

  /** One entry of a novel's outline: chapter title and the page holding its
      text. The outline's order is the reading order. */
  datatype ChapterRef = ChapterRef(title: string, url: string)

  /** One discovery result: title, author and detail-page URL. */
  datatype NovelRef = NovelRef(title: string, author: string, detailUrl: string)

  // ---------------------------------------------------------------------------
  // Registry

  /** The class-level dictionary of registered crawlers. A registered value
      of `None` models registering Python's `None`, which `create` cannot
      tell apart from a missing entry. */
  datatype Registry<C> = Registry(sites: map<string, Option<C>>)

  /** A fresh instance of a registered crawler class. */
  datatype Crawler<C> = Crawler(cls: C)

  datatype FactoryError = CrawlerNotFound(siteName: string)

  /** The registry before any registration. */
  function EmptyRegistry<C>(): (r: Registry<C>)
    ensures forall name :: name !in r.sites
  {
    Registry(map[])
  }

  /** `register_novel_crawler`: store the class under the name, silently
      replacing any earlier registration, and leave every other name alone. */
  function Register<C>(reg: Registry<C>, siteName: string, crawler: Option<C>): (r: Registry<C>)
    ensures siteName in r.sites && r.sites[siteName] == crawler
    ensures r.sites.Keys == reg.sites.Keys + {siteName}
    ensures forall n :: n != siteName && n in reg.sites ==> r.sites[n] == reg.sites[n]
  {
    Registry(reg.sites[siteName := crawler])
  }

  /** `create_novel_crawler`: instantiate the class registered under the
      name, or fail with `CrawlerNotFound` when there is none (never
      registered, or registered as `None`). The registry is only read. */
  function Create<C>(reg: Registry<C>, siteName: string): (r: Result<Crawler<C>, FactoryError>)
    ensures r.Success? <==> siteName in reg.sites && reg.sites[siteName].Some?
    ensures r.Success? ==> r.value.cls == reg.sites[siteName].value
    ensures r.Failure? ==> r.error == CrawlerNotFound(siteName)
  {
    if siteName in reg.sites && reg.sites[siteName].Some? then
      Success(Crawler(reg.sites[siteName].value))
    else
      Failure(CrawlerNotFound(siteName))
  }

  /** After registering a class under a name, creating by that name
      instantiates exactly that class. */
  lemma RegisterThenCreate<C>(reg: Registry<C>, siteName: string, cls: C)
    ensures Create(Register(reg, siteName, Some(cls)), siteName) == Success(Crawler(cls))
  {
  }

  /** Re-registering a name forgets the earlier class entirely. */
  lemma RegisterOverwrites<C>(reg: Registry<C>, siteName: string, first: Option<C>, second: Option<C>)
    ensures Register(Register(reg, siteName, first), siteName, second)
         == Register(reg, siteName, second)
  {
  }

  /** Registering one name never changes what another name creates. */
  lemma RegisterIsolated<C>(reg: Registry<C>, siteName: string, crawler: Option<C>, other: string)
    requires other != siteName
    ensures Create(Register(reg, siteName, crawler), other) == Create(reg, other)
  {
  }

  /** Registrations under distinct names commute. */
  lemma RegisterCommutes<C>(reg: Registry<C>, a: string, ca: Option<C>, b: string, cb: Option<C>)
    requires a != b
    ensures Register(Register(reg, a, ca), b, cb) == Register(Register(reg, b, cb), a, ca)
  {
  }

  /** Registering `None` disables a name just like never registering it. */
  lemma RegisterNoneFails<C>(reg: Registry<C>, siteName: string)
    ensures Create(Register(reg, siteName, None), siteName) == Failure(CrawlerNotFound(siteName))
  {
  }

  /** A registry built from a list of registrations creates, for each name,
      the class of the LAST registration of that name, and fails for names
      never registered. */
  function RegisterAll<C>(reg: Registry<C>, entries: seq<(string, C)>): Registry<C>
    decreases |entries|
  {
    if |entries| == 0 then reg
    else RegisterAll(Register(reg, entries[0].0, Some(entries[0].1)), entries[1..])
  }

  /** Reference definition: the class of the last registration of
      `siteName` in `entries`, if any; a later registration wins. */
  function LastRegistered<C>(entries: seq<(string, C)>, siteName: string): Option<C>
    decreases |entries|
  {
    if |entries| == 0 then None
    else
      match LastRegistered(entries[1..], siteName)
      case Some(cls) => Some(cls)
      case None => if entries[0].0 == siteName then Some(entries[0].1) else None
  }

  /** After a series of registrations, a name creates the class of its last
      registration, and a name never registered behaves as before. */
  lemma {:induction false} RegisterAllLastWins<C>(reg: Registry<C>, entries: seq<(string, C)>, siteName: string)
    ensures Create(RegisterAll(reg, entries), siteName)
         == match LastRegistered(entries, siteName)
            case Some(cls) => Success(Crawler(cls))
            case None => Create(reg, siteName)
    decreases |entries|
  {
    if |entries| > 0 {
      var reg' := Register(reg, entries[0].0, Some(entries[0].1));
      RegisterAllLastWins(reg', entries[1..], siteName);
      if entries[0].0 != siteName {
        RegisterIsolated(reg, entries[0].0, Some(entries[0].1), siteName);
      }
    }
  }

  /** The registration at position `i` is the last one of its name. */
  lemma {:induction false} LastRegisteredAt<C>(entries: seq<(string, C)>, siteName: string, i: nat)
    requires i < |entries| && entries[i].0 == siteName
    requires forall j :: i < j < |entries| ==> entries[j].0 != siteName
    ensures LastRegistered(entries, siteName) == Some(entries[i].1)
    decreases |entries|
  {
    var rest := entries[1..];
    if i > 0 {
      assert rest[i - 1] == entries[i];
      assert forall j :: i - 1 < j < |rest| ==> rest[j] == entries[j + 1];
      LastRegisteredAt(rest, siteName, i - 1);
    } else {
      assert forall j :: 0 <= j < |rest| ==> rest[j] == entries[j + 1];
      LastRegisteredNever(rest, siteName);
    }
  }

  /** A name that is never registered has no last registration. */
  lemma {:induction false} LastRegisteredNever<C>(entries: seq<(string, C)>, siteName: string)
    requires forall i :: 0 <= i < |entries| ==> entries[i].0 != siteName
    ensures LastRegistered(entries, siteName) == None
    decreases |entries|
  {
    if |entries| > 0 {
      assert forall j :: 0 <= j < |entries| - 1 ==> entries[1..][j] == entries[j + 1];
      LastRegisteredNever(entries[1..], siteName);
    }
  }
}

=== FILE: metadata.dfy ===
/** The rules applied to a novel's detail page: its id taken from the URL,
    the word count, the completed/ongoing status, and the all-empty record
    returned whenever anything goes wrong. */
module UjMetadata {
  import opened Wrappers
  import opened Strings
  import opened Seqs
  import opened UjSite
  import opened CrawlerFactory

  /** The fields the HTML parser pulls out of a detail page, before any of
      the crawler's own rules are applied. A page missing any element the
      crawler looks up is represented by `None` in `MetadataOf`. */
  datatype DetailPage = DetailPage(
    coverSrc: string,         // cover image source
    heading: string,          // first text node of the title heading
    author: string,           // author link text
    counters: seq<string>,    // texts of the counter spans: tag, clicks, recommendations, favourites, words
    intro: seq<string>,       // text fragments of the introduction
    updateText: string,       // text of the "updated at" span
    catalogHref: string       // site-relative link of the chapter catalogue
  )

  /** The record returned instead of raising. */
  const Sentinel: NovelMetadata := NovelMetadata("", "", "", "", "", 0, "", "", "", "")

  /** The path segment holding the id: the last one, or the one before the
      trailing slash. Python's negative indexing never fails here because a
      URL ending in '/' always splits into at least two pieces. */
  function IdSegment(url: string): (segment: string)
    ensures '/' !in segment
  {
    var segments := Split(url, '/');
    if EndsWith(url, "/") then
      SplitAppendSep(url[..|url| - 1], '/');
      assert url == url[..|url| - 1] + ['/'];
      segments[|segments| - 2]
    else
      segments[|segments| - 1]
  }

  /** The novel id of a detail URL: the id segment with every ".html"
      deleted. */
  function NovelId(url: string): (id: string)
    ensures '/' !in id
  {
    RemoveAll(IdSegment(url), ".html")
  }

  /** For a directory-style URL the id segment is the last segment. */
  lemma IdSegmentOfDirectory(prefix: string, segment: string)
    requires '/' !in segment
    ensures IdSegment(prefix + "/" + segment + "/") == segment
  {
    var a := prefix + "/";
    var u := a + segment + "/";
    SplitAppendSep(prefix, '/');
    var p := Split(a, '/');
    assert p[|p| - 1] == [];
    SplitAppendPlain(a, segment, '/');
    var q := Split(a + segment, '/');
    assert q[|q| - 1] == [] + segment == segment;
    assert u == (a + segment) + ['/'];
    SplitAppendSep(a + segment, '/');
    assert Split(u, '/') == q + [[]];
    assert EndsWith(u, "/");
  }

  /** For a file-style URL the id segment is the file name. */
  lemma IdSegmentOfFile(prefix: string, segment: string)
    requires '/' !in segment && |segment| > 0
    ensures IdSegment(prefix + "/" + segment) == segment
  {
    var a := prefix + "/";
    var u := a + segment;
    SplitAppendSep(prefix, '/');
    SplitAppendPlain(a, segment, '/');
    var q := Split(u, '/');
    assert q[|q| - 1] == [] + segment == segment;
    assert u[|u| - 1] == segment[|segment| - 1];
    assert segment[|segment| - 1] in segment;
    assert !EndsWith(u, "/");
  }

  lemma NovelIdOfDirectory(prefix: string, segment: string)
    requires '/' !in segment
    ensures NovelId(prefix + "/" + segment + "/") == RemoveAll(segment, ".html")
  {
    IdSegmentOfDirectory(prefix, segment);
  }

  lemma NovelIdOfFile(prefix: string, segment: string)
    requires '/' !in segment && |segment| > 0
    ensures NovelId(prefix + "/" + segment) == RemoveAll(segment, ".html")
  {
    IdSegmentOfFile(prefix, segment);
  }

  /** A page URL `prefix + "/" + id + ".html"` with a numeric id has that
      id: the suffix is the only thing removed. */
  lemma NovelIdOfHtml(prefix: string, id: string)
    requires |id| > 0 && AllDigits(id)
    ensures NovelId(prefix + "/" + id + ".html") == id
  {
    assert '.' !in id && '/' !in id + ".html";
    NovelIdOfFile(prefix, id + ".html");
    ConcatAssoc(prefix + "/", id, ".html");
    RemoveAllTrailing(id, ".html");
  }

  /** A book page `BaseUrl + "book/" + id + "/"` with a numeric id has
      that id. */
  lemma NovelIdOfBook(id: string)
    requires |id| > 0 && AllDigits(id)
    ensures NovelId(BaseUrl + "book/" + id + "/") == id
  {
    if Contains(id, ".html") {
      ContainsHead(id, ".html");
    }
    NovelIdOfDirectory(BaseUrl + "book", id);
    assert "book/" == "book" + "/";
    ConcatAssoc(BaseUrl, "book", "/");
  }

  lemma NovelIdExample()
    ensures NovelId(BaseUrl + "book/" + "1022" + "/") == "1022"
  {
    assert AllDigits("1022");
    NovelIdOfBook("1022");
  }


  /** The word counter, already stripped: a "K" anywhere means thousands and
      every "K" is deleted before parsing; failing that a "W" means ten
      thousands; otherwise the text is a plain number. `None` stands for the
      `ValueError` of a text that is not a number after the deletion. */
  function WordCount(s: string): (r: Option<nat>)
    ensures r.Some? && 'K' in s ==> r.value % 1000 == 0
    ensures r.Some? && 'K' !in s && 'W' in s ==> r.value % 10000 == 0
  {
    if 'K' in s then
      match ParseNat(RemoveAll(s, "K"))
      case Some(n) => Some(n * 1000)
      case None => None
    else if 'W' in s then
      match ParseNat(RemoveAll(s, "W"))
      case Some(n) => Some(n * 10000)
      case None => None
    else ParseNat(s)
  }

  lemma RemoveCharFromNumber(n: nat, c: char)
    requires !IsDigit(c)
    ensures RemoveAll(ShowNat(n) + [c], [c]) == ShowNat(n)
  {
    RemoveCharAppend(ShowNat(n), [c], c);
    ContainsChar(ShowNat(n), c);
    assert RemoveAll([c], [c]) == [];
  }

  /** `str(n) + "K"` counts `n` thousand words. */
  lemma WordCountThousands(n: nat)
    ensures WordCount(ShowNat(n) + "K") == Some(n * 1000)
  {
    RemoveCharFromNumber(n, 'K');
    ParseShow(n);
  }

  /** `str(n) + "W"` counts `n` ten-thousand words. */
  lemma WordCountTenThousands(n: nat)
    ensures WordCount(ShowNat(n) + "W") == Some(n * 10000)
  {
    assert 'K' !in ShowNat(n) + "W";
    RemoveCharFromNumber(n, 'W');
    ParseShow(n);
  }

  /** A bare number counts as itself. */
  lemma WordCountPlain(n: nat)
    ensures WordCount(ShowNat(n)) == Some(n)
  {
    assert 'K' !in ShowNat(n) && 'W' !in ShowNat(n);
    ParseShow(n);
  }

  /** The "K" rule wins: with both letters present the "W" survives the
      deletion and the parse fails. */
  lemma WordCountKBeforeW(s: string)
    requires 'K' in s && 'W' in s
    ensures WordCount(s) == None
  {
    RemoveAllKeeps(s, "K", 'W');
  }

  lemma WordCountExamples()
    ensures WordCount("12K") == Some(12000)
    ensures WordCount("3W") == Some(30000)
    ensures WordCount("500") == Some(500)
  {
    WordCountThousands(12);
    assert ShowNat(12) + "K" == "12K";
    WordCountTenThousands(3);
    assert ShowNat(3) + "W" == "3W";
    WordCountPlain(500);
    assert ShowNat(500) == "500";
  }

  /** The status derived from the whole days elapsed since the last update:
      completed exactly when more than 30 days have passed. */
  function Status(elapsedDays: int): (r: string)
    ensures r == Completed || r == Ongoing
    ensures r == Completed <==> elapsedDays > 30
  {
    if elapsedDays > 30 then Completed else Ongoing
  }

  /** Once completed, a novel stays completed as time passes. */
  lemma StatusMonotone(d1: int, d2: int)
    requires d1 <= d2 && Status(d1) == Completed
    ensures Status(d2) == Completed
  {
  }

  lemma StatusBoundary()
    ensures Status(30) == Ongoing && Status(31) == Completed && Status(29) == Ongoing
  {
  }

  /** The update date as the crawler stores it: the label "更新时间："
      deleted and the rest stripped. */
  function UpdateTime(text: string): (date: string)
    ensures |date| <= |text|
    ensures !Contains(text, "更新时间：") ==> date == Strip(text)
    ensures |date| > 0 ==> !IsSpace(date[0]) && !IsSpace(date[|date| - 1])
  {
    Strip(RemoveAll(text, "更新时间："))
  }

  /** The date as the page shows it, "更新时间：" followed by the date: the
      label is removed and the date is stripped. */
  lemma UpdateTimeOfLabel(d: string)
    requires !Contains(d, "更新时间：")
    ensures UpdateTime("更新时间：" + d) == Strip(d)
  {
    RemoveAllLeading("更新时间：", d);
  }

  /** `get_novel_metadata_async` on an already fetched detail page. `page`
      is `None` when the fetch failed or an element is missing; `daysSince`
      stands for parsing the date as YYYY-MM-DD and taking the whole days
      from then to now (`None` when the date does not parse). Every failure
      gives the sentinel. */
  function MetadataOf(url: string, page: Option<DetailPage>, daysSince: string -> Option<int>): (m: NovelMetadata)
    ensures page.None? ==> m == Sentinel
    ensures m != Sentinel ==>
              && m.id == NovelId(url)
              && (m.status == Completed || m.status == Ongoing)
              && StartsWith(m.catalogUrl, SiteRoot)
    ensures m == Sentinel <==> m.status == ""
  {
    match page
    case None => Sentinel
    case Some(p) =>
      if |p.counters| < 5 then Sentinel
      else
        match WordCount(Strip(p.counters[4]))
        case None => Sentinel
        case Some(words) =>
          var updated := UpdateTime(p.updateText);
          match daysSince(updated)
          case None => Sentinel
          case Some(days) =>
            NovelMetadata(
              id := NovelId(url),
              title := Strip(p.heading),
              author := p.author,
              tag := Strip(p.counters[0]),
              status := Status(days),
              wordCount := words,
              updateTime := updated,
              description := Flatten(Gather(p.intro, Strip)),
              coverUrl := p.coverSrc,
              catalogUrl := AbsoluteUrl(p.catalogHref))
  }

  /** A page with the five counters: an unparsable word count or date
      gives the sentinel, and otherwise the record carries the page's fields. */
  lemma MetadataOfWellFormed(url: string, p: DetailPage, daysSince: string -> Option<int>)
    requires |p.counters| >= 5
    ensures var m := MetadataOf(url, Some(p), daysSince);
            var count, days := WordCount(Strip(p.counters[4])), daysSince(UpdateTime(p.updateText));
            if count.None? || days.None? then m == Sentinel
            else
              && m.id == NovelId(url) && m.title == Strip(p.heading) && m.author == p.author
              && m.tag == Strip(p.counters[0]) && m.wordCount == count.value
              && m.status == Status(days.value) && m.catalogUrl == SiteRoot + p.catalogHref
              && m.updateTime == UpdateTime(p.updateText)
              && m.description == Flatten(Gather(p.intro, Strip))
              && m.coverUrl == p.coverSrc
  {
  }

  /** A counter row too short to hold the word count gives the sentinel. */
  lemma MetadataShortCounters(url: string, p: DetailPage, daysSince: string -> Option<int>)
    requires |p.counters| < 5
    ensures MetadataOf(url, Some(p), daysSince) == Sentinel
  {
  }
}

=== FILE: persist.dfy ===
/** Saving a novel: `write_novel_content_to_file`, with the file system as a
    map from path to contents. */
module UjPersist {
  import opened Wrappers
  import opened Strings
  import opened Seqs
  import opened UjSite
  import opened CrawlerFactory
  import opened UjMetadata
  import opened UjChapters

  type FileSystem = map<string, string>

  /** `file_path + tag + '/' + title + '_' + author + '.txt'`. */
  function NovelPath(base: string, m: NovelMetadata): (path: string)
    ensures StartsWith(path, base) && EndsWith(path, ".txt")
  {
    base + m.tag + "/" + m.title + "_" + m.author + ".txt"
  }

  /** The path determines the novel's tag, title and author, provided the
      tag has no `/` and the title no `_`: the file names of two such novels
      differ unless all three agree. */
  lemma NovelPathInjective(base: string, m1: NovelMetadata, m2: NovelMetadata)
    requires '/' !in m1.tag && '/' !in m2.tag && '_' !in m1.title && '_' !in m2.title
    requires NovelPath(base, m1) == NovelPath(base, m2)
    ensures m1.tag == m2.tag && m1.title == m2.title && m1.author == m2.author
  {
    NovelPathParts(base, m1);
    NovelPathParts(base, m2);
    var r1, r2 := m1.title + ['_'] + (m1.author + ".txt"), m2.title + ['_'] + (m2.author + ".txt");
    SplitAtSeparator(m1.tag, r1, m2.tag, r2, '/');
    SplitAtSeparator(m1.title, m1.author + ".txt", m2.title, m2.author + ".txt", '_');
    assert m1.author == (m1.author + ".txt")[..|m1.author|];
  }

  /** The path after the base, grouped at its two separators. */
  lemma NovelPathParts(base: string, m: NovelMetadata)
    ensures NovelPath(base, m)[|base|..] == m.tag + ['/'] + (m.title + ['_'] + (m.author + ".txt"))
  {
    var rest := m.title + ['_'] + (m.author + ".txt");
    assert NovelPath(base, m) == base + (m.tag + ['/'] + rest);
  }

  /** Without that proviso two different novels can share a file: moving a
      `_`-separated piece from the end of the title to the front of the
      author gives the same path, so the second novel's chapters are appended
      to the first one's file. */
  lemma NovelPathCollision(base: string, m: NovelMetadata, title: string, piece: string, author: string)
    ensures var m1 := m.(title := title + "_" + piece, author := author);
            var m2 := m.(title := title, author := piece + "_" + author);
            m1 != m2 && NovelPath(base, m1) == NovelPath(base, m2)
  {
    var m1 := m.(title := title + "_" + piece, author := author);
    var m2 := m.(title := title, author := piece + "_" + author);
    assert |m1.title| != |m2.title|;
    assert NovelPath(base, m1) == base + m.tag + "/" + title + ("_" + piece + "_" + author) + ".txt";
    assert NovelPath(base, m2) == base + m.tag + "/" + title + ("_" + piece + "_" + author) + ".txt";
  }

  /** One chapter in the file: its title line, its text, a blank line. */
  function ChapterBlock(title: string, content: string): string {
    title + "\n" + content + "\n\n"
  }

  /** The text appended for a novel: one block per (chapter, content) pair
      of `zip`, which stops at the shorter list. */
  function Body(chapters: seq<ChapterRef>, contents: seq<string>): (body: string)
    ensures |body| == 0 <==> |chapters| == 0 || |contents| == 0
    ensures |body| >= 3 * (if |chapters| < |contents| then |chapters| else |contents|)
    decreases |chapters|
  {
    if |chapters| == 0 || |contents| == 0 then []
    else ChapterBlock(chapters[0].title, contents[0]) + Body(chapters[1..], contents[1..])
  }

  /** Blocks follow the outline: adding a chapter at the end of the outline
      adds its block at the end of the body. */
  lemma {:induction false} BodyAppend(chapters: seq<ChapterRef>, contents: seq<string>, c: ChapterRef, text: string)
    requires |chapters| == |contents|
    ensures Body(chapters + [c], contents + [text]) == Body(chapters, contents) + ChapterBlock(c.title, text)
    decreases |chapters|
  {
    if |chapters| == 0 {
      assert Body([], []) == [];
      assert Body([c], [text]) == ChapterBlock(c.title, text) + Body([], []);
    } else {
      assert (chapters + [c])[1..] == chapters[1..] + [c];
      assert (contents + [text])[1..] == contents[1..] + [text];
      BodyAppend(chapters[1..], contents[1..], c, text);
    }
  }

  /** `zip` drops the unmatched tail of the longer list. */
  lemma {:induction false} BodyTruncates(chapters: seq<ChapterRef>, contents: seq<string>)
    ensures var m := if |chapters| < |contents| then |chapters| else |contents|;
            Body(chapters, contents) == Body(chapters[..m], contents[..m])
    decreases |chapters|
  {
    var m := if |chapters| < |contents| then |chapters| else |contents|;
    if m > 0 {
      BodyTruncates(chapters[1..], contents[1..]);
      assert chapters[..m][1..] == chapters[1..][..m - 1];
      assert contents[..m][1..] == contents[1..][..m - 1];
    }
  }

  /** Open for appending, creating an empty file first when none exists:
      earlier contents are kept and nothing else changes. */
  function AppendToFile(fs: FileSystem, path: string, text: string): (fs': FileSystem)
    ensures path in fs'
    ensures fs'[path] == (if path in fs then fs[path] else "") + text
    ensures fs'.Keys == fs.Keys + {path}
    ensures forall p :: p in fs && p != path ==> fs'[p] == fs[p]
  {
    var existing := if path in fs then fs[path] else "";
    fs[path := existing + text]
  }

  /** Saving twice appends the body twice: the operation is not idempotent. */
  lemma AppendTwice(fs: FileSystem, path: string, text: string)
    ensures AppendToFile(AppendToFile(fs, path, text), path, text)[path]
         == (if path in fs then fs[path] else "") + text + text
  {
  }

  /** The site a crawler talks to, as the functions its pages amount to:
      the detail page at a URL, the whole days since a date, the catalogue at
      a URL and the chapter text at a URL. `None` is a failed fetch or a
      missing element. */
  datatype Site = Site(
    detail: string -> Option<DetailPage>,
    daysSince: string -> Option<int>,
    catalog: string -> Option<seq<CatalogItem>>,
    chapter: string -> Option<string>)

  function FetchMetadata(site: Site, url: string): NovelMetadata {
    MetadataOf(url, site.detail(url), site.daysSince)
  }

  function FetchChapters(site: Site, m: NovelMetadata): seq<ChapterRef> {
    ChapterList(site.catalog(m.catalogUrl))
  }

  /** The chapter texts, gathered in outline order. */
  function FetchContents(site: Site, chapters: seq<ChapterRef>): (contents: seq<string>)
    ensures |contents| == |chapters|
    ensures forall i :: 0 <= i < |chapters| ==> contents[i] == ChapterContent(site.chapter(chapters[i].url))
  {
    Gather(chapters, (c: ChapterRef) => ChapterContent(site.chapter(c.url)))
  }

  /** The chapter texts fetched one after another, first chapter first: the
      sequential reading that `gather` must agree with. */
  function ChapterTexts(site: Site, chapters: seq<ChapterRef>): seq<string>
    decreases |chapters|
  {
    if |chapters| == 0 then []
    else [ChapterContent(site.chapter(chapters[0].url))] + ChapterTexts(site, chapters[1..])
  }

  /** Gathering the chapter texts concurrently yields what fetching them in
      sequence would: the same texts in the same order. */
  lemma {:induction false} FetchContentsSequential(site: Site, chapters: seq<ChapterRef>)
    ensures FetchContents(site, chapters) == ChapterTexts(site, chapters)
    decreases |chapters|
  {
    if |chapters| > 0 {
      FetchContentsSequential(site, chapters[1..]);
      var g, t := FetchContents(site, chapters), ChapterTexts(site, chapters);
      var g', t' := FetchContents(site, chapters[1..]), ChapterTexts(site, chapters[1..]);
      assert |t| == |g|;
      forall i | 0 <= i < |g|
        ensures g[i] == t[i]
      {
        if i > 0 {
          assert g[i] == g'[i - 1];
        }
      }
    }
  }

  /** `write_novel_content_to_file` as written: metadata, then the
      catalogue, then every chapter, then one append to the novel's file.
      Nothing checks whether the metadata is the sentinel. */
  function SaveNovelUnchecked(site: Site, url: string, base: string, fs: FileSystem): (fs': FileSystem)
    ensures var m := FetchMetadata(site, url);
            var chapters := FetchChapters(site, m);
            var path := NovelPath(base, m);
            && path in fs'
            && fs'[path] == (if path in fs then fs[path] else "") + Body(chapters, ChapterTexts(site, chapters))
            && fs'.Keys == fs.Keys + {path}
            && forall p :: p in fs && p != path ==> fs'[p] == fs[p]
  {
    var m := FetchMetadata(site, url);
    var chapters := FetchChapters(site, m);
    FetchContentsSequential(site, chapters);
    AppendToFile(fs, NovelPath(base, m), Body(chapters, FetchContents(site, chapters)))
  }

  /** When the detail page cannot be read, the unchecked save still creates
      (or appends to) the file `base + "/_.txt"` built from the sentinel's
      empty tag, title and author. */
  lemma SaveNovelUncheckedStrayFile(site: Site, url: string, base: string, fs: FileSystem)
    requires site.detail(url).None?
    ensures var fs' := SaveNovelUnchecked(site, url, base, fs);
            (base + "/_.txt") in fs' && fs'.Keys == fs.Keys + {base + "/_.txt"}
  {
    assert NovelPath(base, Sentinel) == base + "/_.txt";
  }

  /** `write_novel_content_to_file` with the failed-metadata case treated as
      a failure: the sentinel leaves the file system untouched. */
  function SaveNovel(site: Site, url: string, base: string, fs: FileSystem): (fs': FileSystem)
    ensures FetchMetadata(site, url) == Sentinel ==> fs' == fs
    ensures FetchMetadata(site, url) != Sentinel ==>
              var m := FetchMetadata(site, url);
              var path := NovelPath(base, m);
              && path in fs'
              && fs'.Keys == fs.Keys + {path}
              && forall p :: p in fs && p != path ==> fs'[p] == fs[p]
  {
    var m := FetchMetadata(site, url);
    if m == Sentinel then fs
    else
      var chapters := FetchChapters(site, m);
      AppendToFile(fs, NovelPath(base, m), Body(chapters, FetchContents(site, chapters)))
  }

  /** The two saves differ only on the sentinel: for metadata that was read,
      the checked save does exactly what `write_novel_content_to_file` does. */
  lemma SaveNovelAgrees(site: Site, url: string, base: string, fs: FileSystem)
    ensures FetchMetadata(site, url) != Sentinel ==>
              SaveNovel(site, url, base, fs) == SaveNovelUnchecked(site, url, base, fs)
    ensures FetchMetadata(site, url) == Sentinel ==>
              && SaveNovel(site, url, base, fs) == fs
              && (NovelPath(base, Sentinel) !in fs ==> SaveNovelUnchecked(site, url, base, fs) != fs)
  {
    var m := FetchMetadata(site, url);
    if m == Sentinel && NovelPath(base, m) !in fs {
      assert NovelPath(base, m) in SaveNovelUnchecked(site, url, base, fs).Keys;
    }
  }

  /** The outline-order guarantee end to end: unless the metadata failed,
      the file gains, after what it already held, one block per chapter of
      the catalogue, each holding the cleaned text fetched from that
      chapter's own URL, and no other file changes. */
  lemma SaveNovelInOutlineOrder(site: Site, url: string, base: string, fs: FileSystem)
    ensures var m := FetchMetadata(site, url);
            var chapters := FetchChapters(site, m);
            var path := NovelPath(base, m);
            SaveNovel(site, url, base, fs)
              == if m == Sentinel then fs
                 else fs[path := (if path in fs then fs[path] else "") + Body(chapters, ChapterTexts(site, chapters))]
  {
    var chapters := FetchChapters(site, FetchMetadata(site, url));
    FetchContentsSequential(site, chapters);
  }

  /** The body holds the blocks in outline order: the body of the first `k`
      chapters is a prefix of the body of all of them. */
  lemma {:induction false} BodyPrefix(chapters: seq<ChapterRef>, contents: seq<string>, k: nat)
    requires |chapters| == |contents| && k <= |chapters|
    ensures var whole, part := Body(chapters, contents), Body(chapters[..k], contents[..k]);
            |part| <= |whole| && whole[..|part|] == part
    decreases |chapters| - k
  {
    if k < |chapters| {
      BodyPrefix(chapters, contents, k + 1);
      assert chapters[..k + 1] == chapters[..k] + [chapters[k]];
      assert contents[..k + 1] == contents[..k] + [contents[k]];
      BodyAppend(chapters[..k], contents[..k], chapters[k], contents[k]);
    } else {
      assert chapters[..k] == chapters && contents[..k] == contents;
    }
  }
}

=== FILE: seqs.dfy ===
/** Sequence combinators behind the crawler's list building: the
    "for each item, skip it or append one result" loops, `asyncio.gather`
    seen as an order-preserving map, and flattening a list of lists. */
module Seqs {
  import opened Wrappers

  /** Keeps, in order, the results of the items `f` accepts. */
  function FilterMap<X, Y>(xs: seq<X>, f: X -> Option<Y>): (ys: seq<Y>)
    ensures |ys| <= |xs|
    ensures forall y :: y in ys ==> exists x :: x in xs && f(x) == Some(y)
    decreases |xs|
  {
    if |xs| == 0 then []
    else
      var rest := FilterMap(xs[1..], f);
      assert forall x :: x in xs[1..] ==> x in xs;
      match f(xs[0])
      case Some(y) => [y] + rest
      case None => rest
  }

  lemma ConcatAssoc<T>(a: seq<T>, b: seq<T>, c: seq<T>)
    ensures a + (b + c) == a + b + c
  {
  }

  /** A non-empty slice is its first element followed by the rest. */
  lemma SliceCons<T>(s: seq<T>, i: nat, j: nat)
    requires i < j <= |s|
    ensures s[i..j] == [s[i]] + s[i + 1..j]
  {
  }

  /** The parts of a sequence extended by one element. */
  lemma Snoc<T>(init: seq<T>, last: T)
    ensures var s := init + [last]; s[..|s| - 1] == init && s[|s| - 1] == last
  {
  }

  /** A non-empty sequence is its front followed by its last element. */
  lemma FrontLast<T>(s: seq<T>)
    requires |s| > 0
    ensures s == s[..|s| - 1] + [s[|s| - 1]]
  {
  }

  /** Position of the first `c` in `s`, or `|s|` when there is none. */
  function FirstIndex<T(==)>(s: seq<T>, c: T): (k: nat)
    ensures k <= |s|
    ensures forall j :: 0 <= j < k ==> s[j] != c
    ensures k < |s| ==> s[k] == c
  {
    if |s| == 0 then 0 else if s[0] == c then 0 else 1 + FirstIndex(s[1..], c)
  }

  lemma {:induction false} FirstIndexAfter<T>(a: seq<T>, c: T, x: seq<T>)
    requires c !in a
    ensures FirstIndex(a + [c] + x, c) == |a|
  {
    if |a| > 0 {
      assert a[0] in a;
      assert (a + [c] + x)[1..] == a[1..] + [c] + x;
      FirstIndexAfter(a[1..], c, x);
    }
  }

  /** A separator that occurs in neither front part splits both sequences at
      the same place. */
  lemma SplitAtSeparator<T>(a: seq<T>, x: seq<T>, b: seq<T>, y: seq<T>, c: T)
    requires c !in a && c !in b
    requires a + [c] + x == b + [c] + y
    ensures a == b && x == y
  {
    var s := a + [c] + x;
    FirstIndexAfter(a, c, x);
    FirstIndexAfter(b, c, y);
    assert a == s[..|a|] && b == s[..|b|];
    assert x == s[|a| + 1..] && y == s[|b| + 1..];
  }

  /** Filtering a concatenation filters each half, keeping their order. */
  lemma {:induction false} FilterMapAppend<X, Y>(a: seq<X>, b: seq<X>, f: X -> Option<Y>)
    ensures FilterMap(a + b, f) == FilterMap(a, f) + FilterMap(b, f)
    decreases |a|
  {
    if |a| == 0 {
      assert a + b == b;
    } else {
      assert (a + b)[0] == a[0];
      assert (a + b)[1..] == a[1..] + b;
      FilterMapAppend(a[1..], b, f);
    }
  }

  /** One item between two runs contributes its own result, if any, between
      theirs. */
  lemma FilterMapMiddle<X, Y>(before: seq<X>, x: X, after: seq<X>, f: X -> Option<Y>)
    ensures FilterMap(before + [x] + after, f)
         == FilterMap(before, f) + (if f(x).Some? then [f(x).value] else []) + FilterMap(after, f)
  {
    FilterMapAppend(before + [x], after, f);
    FilterMapAppend(before, [x], f);
    assert [x][1..] == [];
  }

  /** When `f` accepts every item nothing is dropped and positions match. */
  lemma {:induction false} FilterMapAllKept<X, Y>(xs: seq<X>, f: X -> Option<Y>)
    requires forall i :: 0 <= i < |xs| ==> f(xs[i]).Some?
    ensures var ys := FilterMap(xs, f);
            |ys| == |xs| && forall i :: 0 <= i < |xs| ==> ys[i] == f(xs[i]).value
    decreases |xs|
  {
    if |xs| > 0 {
      FilterMapAllKept(xs[1..], f);
    }
  }

  /** `asyncio.gather` over `f` applied to each item: one result per item, at
      the item's own position, whatever order the work finishes in. */
  function Gather<X, Y>(xs: seq<X>, f: X -> Y): (ys: seq<Y>)
    ensures |ys| == |xs|
    ensures forall i :: 0 <= i < |xs| ==> ys[i] == f(xs[i])
    decreases |xs|
  {
    if |xs| == 0 then [] else [f(xs[0])] + Gather(xs[1..], f)
  }

  /** Concatenation of a list of lists, in order. */
  function Flatten<T(!new)>(xss: seq<seq<T>>): (r: seq<T>)
    ensures forall x :: x in r <==> exists i :: 0 <= i < |xss| && x in xss[i]
    decreases |xss|
  {
    if |xss| == 0 then []
    else
      var rest := Flatten(xss[1..]);
      assert forall i :: 0 < i < |xss| ==> xss[i] == xss[1..][i - 1];
      xss[0] + rest
  }

  predicate AllSome<T>(xs: seq<Option<T>>) {
    forall i :: 0 <= i < |xs| ==> xs[i].Some?
  }

  function Values<T>(xs: seq<Option<T>>): (vs: seq<T>)
    requires AllSome(xs)
    ensures |vs| == |xs| && forall i :: 0 <= i < |xs| ==> Some(vs[i]) == xs[i]
  {
    seq(|xs|, i requires 0 <= i < |xs| => xs[i].value)
  }
}

=== FILE: site.dfy ===
/** Constants of the ujxsw.org crawler. */
module UjSite {
  import opened Strings

  const BaseUrl: string := "http://www.ujxsw.org/"

  /** `base_url[:-1]`: the site root without its trailing slash, which the
      crawler puts in front of the site-relative links it scrapes. */
  const SiteRoot: string := BaseUrl[..|BaseUrl| - 1]

  /** The only tags the tag listing accepts. */
  const TagsList: seq<string> := ["wuxia", "dushi", "xuanhuan", "lishi", "youxi", "kehuan", "yanqing"]

  /** Author recorded when a listing entry names none ("anonymous"). */
  const AnonymousAuthor: string := "佚名"

  const Completed: string := "完结"
  const Ongoing: string := "连载"

  /** A link as the HTML parser reports it: its text and its `href`. */
  datatype Anchor = Anchor(text: string, href: string)

  /** The site-relative link `href` made absolute. */
  function AbsoluteUrl(href: string): (url: string)
    ensures StartsWith(url, BaseUrl[..|BaseUrl| - 1]) && url[|SiteRoot|..] == href
  {
    SiteRoot + href
  }
}

=== FILE: strings.dfy ===
/** The handful of Python `str` operations the crawler relies on, written out
    over `seq<char>`: `split`/`join` on one separator character, `in` for
    substrings, `replace(pat, '')`, `strip()`, `int()` on decimal digits and
    `str()` of a natural number. */
module Strings {
  import opened Wrappers
  import opened Seqs

  predicate StartsWith(s: string, prefix: string) {
    |prefix| <= |s| && s[..|prefix|] == prefix
  }

  predicate EndsWith(s: string, suffix: string) {
    |suffix| <= |s| && s[|s| - |suffix|..] == suffix
  }

  /** Python's `pat in s` for strings: `pat` occurs as a contiguous block. */
  predicate Contains(s: string, pat: string)
    decreases |s|
  {
    StartsWith(s, pat) || (|s| > 0 && Contains(s[1..], pat))
  }

  /** Text containing the pattern contains its first character. */
  lemma {:induction false} ContainsHead(s: string, pat: string)
    requires Contains(s, pat) && |pat| > 0
    ensures pat[0] in s
    decreases |s|
  {
    if StartsWith(s, pat) {
      assert s[0] == pat[0];
    } else {
      ContainsHead(s[1..], pat);
      assert pat[0] in s[1..];
    }
  }

  lemma {:induction false} ContainsChar(s: string, c: char)
    ensures Contains(s, [c]) <==> c in s
    decreases |s|
  {
    if |s| > 0 {
      ContainsChar(s[1..], c);
      assert s == [s[0]] + s[1..];
    }
  }

  // ---------------------------------------------------------------------------
  // split / join

  /** Python's `s.split(sep)` for a single separator character: the pieces
      between separators, so there is always one more piece than there are
      separators (`"".split('/') == ['']`, `"a/".split('/') == ['a', '']`). */
  function Split(s: string, sep: char): (parts: seq<string>)
    ensures |parts| >= 1
    ensures forall k :: 0 <= k < |parts| ==> sep !in parts[k]
    decreases |s|
  {
    if |s| == 0 then [[]]
    else
      var init := Split(s[..|s| - 1], sep);
      if s[|s| - 1] == sep then init + [[]]
      else init[..|init| - 1] + [init[|init| - 1] + [s[|s| - 1]]]
  }

  /** Python's `sep.join(parts)`. */
  function Join(parts: seq<string>, sep: char): string
    decreases |parts|
  {
    if |parts| == 0 then []
    else if |parts| == 1 then parts[0]
    else Join(parts[..|parts| - 1], sep) + [sep] + parts[|parts| - 1]
  }

  /** Joining the pieces of a split gives back the original string. */
  lemma {:induction false} JoinSplit(s: string, sep: char)
    ensures Join(Split(s, sep), sep) == s
    decreases |s|
  {
    if |s| > 0 {
      var t, c := s[..|s| - 1], s[|s| - 1];
      assert s == t + [c];
      JoinSplit(t, sep);
      var init := Split(t, sep);
      var n := |init|;
      if c == sep {
        var parts := init + [[]];
        assert parts[..|parts| - 1] == init;
      } else if n > 1 {
        var parts := init[..n - 1] + [init[n - 1] + [c]];
        assert parts[..|parts| - 1] == init[..n - 1];
        assert Join(init, sep) == Join(init[..n - 1], sep) + [sep] + init[n - 1];
      }
    }
  }

  lemma SplitAppendSep(a: string, sep: char)
    ensures Split(a + [sep], sep) == Split(a, sep) + [[]]
  {
    assert (a + [sep])[..|a|] == a;
  }

  /** One step of `Split` on a string whose last character is not the
      separator. */
  lemma SplitAppendChar(a: string, c: char, sep: char)
    requires c != sep
    ensures var p := Split(a, sep);
            Split(a + [c], sep) == p[..|p| - 1] + [p[|p| - 1] + [c]]
  {
    assert (a + [c])[..|a|] == a;
  }

  /** The last piece of `Split(a + b', sep)` grows by one more
      non-separator character. */
  lemma SplitAppendPlainStep(a: string, b': string, c: char, sep: char)
    requires c != sep
    requires var p := Split(a, sep);
             Split(a + b', sep) == p[..|p| - 1] + [p[|p| - 1] + b']
    ensures var p := Split(a, sep);
            Split(a + (b' + [c]), sep) == p[..|p| - 1] + [p[|p| - 1] + (b' + [c])]
  {
    var p := Split(a, sep);
    var q := Split(a + b', sep);
    assert Split(a + (b' + [c]), sep) == q[..|q| - 1] + [q[|q| - 1] + [c]] by {
      ConcatAssoc(a, b', [c]);
      SplitAppendChar(a + b', c, sep);
    }
    Snoc(p[..|p| - 1], p[|p| - 1] + b');
    ConcatAssoc(p[|p| - 1], b', [c]);
  }

  /** Appending separator-free text only extends the last piece. */
  lemma {:induction false} SplitAppendPlain(a: string, b: string, sep: char)
    requires sep !in b
    ensures var p := Split(a, sep);
            Split(a + b, sep) == p[..|p| - 1] + [p[|p| - 1] + b]
    decreases |b|
  {
    var p := Split(a, sep);
    if |b| == 0 {
      assert a + b == a && p[|p| - 1] + b == p[|p| - 1];
      FrontLast(p);
    } else {
      var b', c := b[..|b| - 1], b[|b| - 1];
      assert sep !in b' && c != sep && b == b' + [c];
      SplitAppendPlain(a, b', sep);
      SplitAppendPlainStep(a, b', c, sep);
    }
  }

  /** A separator and a separator-free piece add exactly that piece. */
  lemma SplitAppendPiece(j: string, last: string, sep: char)
    requires sep !in last
    ensures Split(j + [sep] + last, sep) == Split(j, sep) + [last]
  {
    SplitAppendSep(j, sep);
    SplitAppendPlain(j + [sep], last, sep);
    var p := Split(j + [sep], sep);
    assert p[..|p| - 1] == Split(j, sep) && p[|p| - 1] == [];
    assert [] + last == last;
  }

  /** Splitting a join of separator-free pieces gives back the pieces. */
  lemma {:induction false} SplitJoin(parts: seq<string>, sep: char)
    requires |parts| >= 1
    requires forall k :: 0 <= k < |parts| ==> sep !in parts[k]
    ensures Split(Join(parts, sep), sep) == parts
    decreases |parts|
  {
    var last := parts[|parts| - 1];
    if |parts| == 1 {
      SplitAppendPlain([], last, sep);
      assert [] + last == last;
    } else {
      var init := parts[..|parts| - 1];
      SplitJoin(init, sep);
      SplitAppendPiece(Join(init, sep), last, sep);
      assert parts == init + [last];
    }
  }

  // ---------------------------------------------------------------------------
  // replace(pat, '')

  /** Python's `s.replace(pat, '')`: occurrences are found left to right and
      do not overlap. */
  function RemoveAll(s: string, pat: string): (r: string)
    requires |pat| > 0
    ensures |r| <= |s|
    ensures forall c :: c in r ==> c in s
    ensures !Contains(s, pat) ==> r == s
    ensures Contains(s, pat) ==> |r| <= |s| - |pat|
    ensures |pat| == 1 ==> pat[0] !in r
    decreases |s|
  {
    if |s| == 0 then []
    else if StartsWith(s, pat) then
      assert forall c :: c in s[|pat|..] ==> c in s;
      RemoveAll(s[|pat|..], pat)
    else
      assert |pat| == 1 ==> s[..1] == [s[0]] && pat == [pat[0]];
      [s[0]] + RemoveAll(s[1..], pat)
  }

  /** A leading occurrence of the pattern is removed, and the rest is
      treated on its own. */
  lemma RemoveAllLeading(pat: string, s: string)
    requires |pat| > 0
    ensures RemoveAll(pat + s, pat) == RemoveAll(s, pat)
  {
    assert (pat + s)[..|pat|] == pat;
    assert (pat + s)[|pat|..] == s;
  }

  /** When the pattern's first character does not occur before it, a
      trailing pattern is all that is removed. */
  lemma {:induction false} RemoveAllTrailing(s: string, pat: string)
    requires |pat| > 0 && pat[0] !in s
    ensures RemoveAll(s + pat, pat) == s
    decreases |s|
  {
    if |s| == 0 {
      assert s + pat == pat && pat[|pat|..] == [];
    } else {
      assert s[0] in s;
      assert (s + pat)[1..] == s[1..] + pat;
      RemoveAllTrailing(s[1..], pat);
      assert s == [s[0]] + s[1..];
    }
  }

  /** A character outside the pattern survives the removal. */
  lemma {:induction false} RemoveAllKeeps(s: string, pat: string, c: char)
    requires |pat| > 0 && c in s && c !in pat
    ensures c in RemoveAll(s, pat)
    decreases |s|
  {
    assert s == [s[0]] + s[1..];
    if StartsWith(s, pat) {
      assert s == pat + s[|pat|..];
      RemoveAllKeeps(s[|pat|..], pat, c);
    } else if s[0] != c {
      RemoveAllKeeps(s[1..], pat, c);
    }
  }

  /** Removing a single character distributes over concatenation. */
  lemma {:induction false} RemoveCharAppend(a: string, b: string, c: char)
    ensures RemoveAll(a + b, [c]) == RemoveAll(a, [c]) + RemoveAll(b, [c])
    decreases |a|
  {
    if |a| > 0 {
      var head := if a[0] == c then [] else [a[0]];
      assert RemoveAll(a + b, [c]) == head + RemoveAll(a[1..] + b, [c]) by {
        assert (a + b)[..1] == [a[0]] && (a + b)[1..] == a[1..] + b;
      }
      assert RemoveAll(a, [c]) == head + RemoveAll(a[1..], [c]) by {
        assert a[..1] == [a[0]];
      }
      RemoveCharAppend(a[1..], b, c);
      ConcatAssoc(head, RemoveAll(a[1..], [c]), RemoveAll(b, [c]));
    } else {
      assert a + b == b;
    }
  }

  // ---------------------------------------------------------------------------
  // strip()

  /** Python's `str.isspace` on one character. */
  predicate IsSpace(c: char) {
    || c == ' '
    || ('\t' <= c <= '\r')
    || ('\U{1c}' <= c <= '\U{1f}')
    || c == '\U{85}' || c == '\U{a0}' || c == '\U{1680}'
    || ('\U{2000}' <= c <= '\U{200a}')
    || c == '\U{2028}' || c == '\U{2029}' || c == '\U{202f}' || c == '\U{205f}'
    || c == '\U{3000}'
  }

  predicate AllSpace(s: string) {
    forall i :: 0 <= i < |s| ==> IsSpace(s[i])
  }

  function TrimStart(s: string): (r: string)
    ensures |r| <= |s| && r == s[|s| - |r|..]
    ensures AllSpace(s[..|s| - |r|])
    ensures |r| > 0 ==> !IsSpace(r[0])
    decreases |s|
  {
    if |s| > 0 && IsSpace(s[0]) then TrimStart(s[1..]) else s
  }

  function TrimEnd(s: string): (r: string)
    ensures |r| <= |s| && r == s[..|r|]
    ensures AllSpace(s[|r|..])
    ensures |r| > 0 ==> !IsSpace(r[|r| - 1])
    decreases |s|
  {
    if |s| > 0 && IsSpace(s[|s| - 1]) then TrimEnd(s[..|s| - 1]) else s
  }

  /** Python's `s.strip()`: the result neither starts nor ends with
      whitespace, and `StripRemovesOnlySpace` shows that nothing else was
      removed. */
  function Strip(s: string): (r: string)
    ensures |r| <= |s|
    ensures |r| > 0 ==> !IsSpace(r[0]) && !IsSpace(r[|r| - 1])
  {
    TrimEnd(TrimStart(s))
  }

  /** Cutting a prefix `r` off the suffix `t` of `s` splits `s` in three. */
  lemma SliceThree(s: string, i: nat, t: string, r: string)
    requires i <= |s| && t == s[i..] && |r| <= |t| && r == t[..|r|]
    ensures s == s[..i] + r + s[i + |r|..]
    ensures t[|r|..] == s[i + |r|..]
  {
    assert s == s[..i] + t;
    assert t == r + t[|r|..];
  }

  /** What `Strip` removes at the end is whitespace. */
  lemma StripTrail(s: string)
    ensures |s| - |TrimStart(s)| + |Strip(s)| <= |s|
    ensures AllSpace(s[|s| - |TrimStart(s)| + |Strip(s)|..])
  {
    var t := TrimStart(s);
    var r := TrimEnd(t);
    var i := |s| - |t|;
    SliceThree(s, i, t, r);
    assert AllSpace(t[|r|..]);
  }

  /** `s` is some whitespace, then `Strip(s)`, then some whitespace. */
  lemma StripRemovesOnlySpace(s: string)
    ensures var i, r := |s| - |TrimStart(s)|, Strip(s);
            && i + |r| <= |s|
            && s == s[..i] + r + s[i + |r|..]
            && AllSpace(s[..i]) && AllSpace(s[i + |r|..])
  {
    var t := TrimStart(s);
    SliceThree(s, |s| - |t|, t, TrimEnd(t));
    StripTrail(s);
  }

  // ---------------------------------------------------------------------------
  // int() and str() on natural numbers

  predicate IsDigit(c: char) {
    '0' <= c <= '9'
  }

  predicate AllDigits(s: string) {
    forall i :: 0 <= i < |s| ==> IsDigit(s[i])
  }

  function DigitValue(c: char): nat
    requires IsDigit(c)
  {
    c as int - '0' as int
  }

  function DigitChar(d: nat): (c: char)
    requires d < 10
    ensures IsDigit(c) && DigitValue(c) == d
  {
    ('0' as int + d) as char
  }

  /** The value of a string of decimal digits, most significant first. */
  function DigitsValue(s: string): nat
    requires AllDigits(s)
    decreases |s|
  {
    if |s| == 0 then 0
    else DigitsValue(s[..|s| - 1]) * 10 + DigitValue(s[|s| - 1])
  }

  /** Python's `int(s)` restricted to ASCII decimal digits: `None` stands for
      the `ValueError` raised on anything else, the empty string included. */
  function ParseNat(s: string): (r: Option<nat>)
    ensures r.Some? <==> |s| > 0 && AllDigits(s)
  {
    if |s| > 0 && AllDigits(s) then Some(DigitsValue(s)) else None
  }

  /** Python's `str(n)` for a natural number. */
  function ShowNat(n: nat): (s: string)
    ensures |s| > 0 && AllDigits(s)
    decreases n
  {
    if n < 10 then [DigitChar(n)] else ShowNat(n / 10) + [DigitChar(n % 10)]
  }

  /** `int(str(n)) == n`. */
  lemma {:induction false} ParseShow(n: nat)
    ensures ParseNat(ShowNat(n)) == Some(n)
    decreases n
  {
    if n >= 10 {
      ParseShow(n / 10);
      var s := ShowNat(n);
      assert s[..|s| - 1] == ShowNat(n / 10);
      assert DigitValue(s[|s| - 1]) == n % 10;
      assert DigitsValue(s) == (n / 10) * 10 + n % 10;
    }
  }
}

=== FILE: wrappers.dfy ===
/** Option and Result values used wherever the crawler either produces a value
    or falls back to its failure convention. */
module Wrappers {

  /** A value that may be absent: a failed fetch, a missing HTML element, a
      parse that did not succeed. */
  datatype Option<+T> = None | Some(value: T) {

    /** The carried value, or `default` when there is none. */
    function GetOr(default: T): T {
      match this
      case Some(v) => v
      case None => default
    }
  }

  /** The outcome of an operation that reports an error to its caller instead
      of swallowing it. */
  datatype Result<+R, +E> = Success(value: R) | Failure(error: E)
}
